=== FILE: README.md ===
# Sample-notebook tooling, modelled in Dafny

This project models the data logic of the SingleStore sample-notebooks
repository. It covers five scripts, each of which rewrites or validates a parsed
value:

- **Notebook normaliser** (`nb-check.py`). For one notebook it:
  - clears the `singlestore*` notebook metadata;
  - blanks every cell's metadata and outputs;
  - drops trailing empty cells;
  - takes out the old header and footer cells, keeping their ids;
  - rewrites every cell source into right-stripped, newline-terminated lines;
  - regenerates the header from `meta.toml` and appends the footer;
  - renumbers the code cells `1, 2, …`.

  The headline property is that the rewrite is idempotent. Run on its own
  output, with any fresh ids, it gives back the same notebook.
- **`meta.toml` validator** (`toml-check.py`) and **author validator**
  (`author-check.py`). Each runs its checks in order and reports the first that
  fails. Each is also proved equivalent to a declarative reading of "valid":
  `TomlCheck.MetaVerdict` for the first, the contract of
  `AuthorCheck.CheckAuthor` for the second.
- **Packaging helpers** (`package-samples.py`):
  - output stripping;
  - parsing of the comma-separated notebook list;
  - selection of notebooks that have their required files;
  - mapping of repository paths to archive paths.
- **Embedding dispatch** (`external_function_api.py`). `process_batch` filters
  and routes one batch. `get_embedding` splits the rows into 1024-row batches
  and pairs the results with row ids.

Modules:

| module | file | contents |
|---|---|---|
| `Wrappers` | wrappers.dfy | `Option`, `Result`, `Outcome` |
| `Text` | text.dfy | the Python `str` operations the scripts use, over `seq<char>` |
| `Values` | values.dfy | parsed JSON/TOML values, with Python truthiness and `in` |
| `Seqs` | seqs.dfy | `filter` |
| `Notebook` | notebook.dfy | cells and notebooks |
| `NbCheck` | nbcheck.dfy | the notebook normaliser |
| `TomlCheck` | tomlcheck.dfy | `meta.toml` validation |
| `AuthorCheck` | authorcheck.dfy | author record validation |
| `PackageSamples` | packaging.dfy | packaging helpers |
| `EmbeddingApi` | embedding.dfy | batch dispatch of the embedding service |

Conventions:

- **Whitespace** is the ASCII part of Python's `str.isspace`: codes 9–13 and
  28–32. Lower-casing affects ASCII letters only.
- **Python exceptions.** Where a script would raise on a value of the wrong
  type, the model returns an explicit `Uncaught` error. Examples are `'title'
  in 5` and `.lower()` on a number.
- **Environment as parameters.** Everything outside the scripts' own logic is
  passed in:
  - file existence (`os.path.isfile`);
  - the directory listing;
  - the configured sample list;
  - fresh UUIDs;
  - the two embedding backends.

  The remote backend returns `None` when it raises.

## Model

| member | source | states |
|---|---|---|
| NbCheck.StripSinglestoreKeys | resources/nb-check.py:129-133 | exactly the notebook metadata keys not starting with `singlestore` remain, with their values unchanged |
| NbCheck.StripSinglestoreKeysIdempotent | resources/nb-check.py:129-133 | clearing the SingleStore keys a second time changes nothing |
| NbCheck.BlankCell | resources/nb-check.py:138-142 | a present `metadata` becomes `{}` and a present `outputs` becomes `[]`; absent keys stay absent and no other field changes; an already blank cell is unchanged |
| NbCheck.DropTrailingEmpty | resources/nb-check.py:145-148 | the result is a prefix; every removed cell has a present, empty source; a non-empty list never loses its first cell; a kept last cell (other than the first) is not empty |
| NbCheck.TakeHeader | resources/nb-check.py:150-160 | the first cell is removed exactly when its joined source contains `id="singlestore-header"`; the new header then takes that cell's id when it has one, otherwise the fresh id |
| NbCheck.TakeFooter | resources/nb-check.py:162-169 | the same for the last cell and `id="singlestore-footer"` |
| NbCheck.NormalizeSourceShape | resources/nb-check.py:174-181 | an all-whitespace source text becomes `[]`; any other becomes its right-stripped lines, each but the last followed by `\n`, the last non-empty |
| NbCheck.NormalizeSourceCanonical | resources/nb-check.py:174-181 | every rewritten source is canonical: each line but the last is a bare line plus `\n`, and the last is a non-empty bare line. It is `[]` exactly when the source text is all whitespace |
| NbCheck.NormalizeSourceText | resources/nb-check.py:174-181 | the rewritten lines concatenate to the right-stripped text with each of its lines right-stripped, joined by `\n` |
| NbCheck.NormalizeSourceFixpoint | resources/nb-check.py:174-181 | a canonical source is left unchanged |
| NbCheck.TidyCell | resources/nb-check.py:171-185 | only `source` and `attachments` change; `attachments: null` becomes `{}`; the result is settled (canonical list source, no null attachments); the new source lines concatenate to the old source's text, right-stripped line by line and as a whole, joined by `\n` |
| NbCheck.TidyCellFixpoint | resources/nb-check.py:171-185 | a settled cell is left unchanged |
| NbCheck.HtmlEscape | resources/nb-check.py:196 | the escaped title holds no raw `<`, `>`, `"` or `'` and is no shorter than the input |
| NbCheck.GetHeaderParams | resources/nb-check.py:188-198 | it succeeds exactly when `meta` is a table whose `icon` is a string in the colour table and whose `title` is a string; a missing `meta` or `icon`, or an icon not in the colour table, is the icon error; otherwise a missing title is the title error; a `meta` that is not a table, a list or table icon, or a non-string title is a type error; on success the icon name is `meta.icon`, the colour is the table's entry for it, and the title is the HTML-escaped `meta.title` |
| NbCheck.NumberCodeCellsAt | resources/nb-check.py:214-218 | the code cell preceded by `j` code cells gets `execution_count` `next + j`; every other cell is unchanged |
| NbCheck.NumberAppend | resources/nb-check.py:214-218 | numbering a concatenation continues the count from the first part into the second |
| NbCheck.NumberIdempotent | resources/nb-check.py:214-218 | renumbering numbered cells changes nothing |
| NbCheck.Prepare | resources/nb-check.py:137-185 | every cell kept between header and footer is blank and settled; the kept cells are the blanked and tidied input cells from index 0 or 1 up to some index, in input order, and only empty cells follow that index apart from a dropped footer |
| NbCheck.Rebuild | resources/nb-check.py:200-218 | the first cell is the markdown header built from the parameters with the kept header id; the last is the markdown footer with the kept footer id; each cell in between is the prepared cell, and a code cell gets `1 +` the number of code cells before it |
| NbCheck.Normalize | resources/nb-check.py:128-218 | the run fails exactly when the header parameters fail, with their error; on success the metadata is cleared of SingleStore keys; `cells` is present exactly when it was; the cells are the rebuilt list |
| NbCheck.HeaderHasMarker | resources/nb-check.py:12-13 | the regenerated header's source contains the header marker |
| NbCheck.FooterHasMarker | resources/nb-check.py:24-25 | the regenerated footer's source contains the footer marker |
| NbCheck.PrepareRebuilt | resources/nb-check.py:144-185 | on a rebuilt list the next run drops nothing, finds the header and footer it wrote and keeps their ids, and leaves the cells in between unchanged |
| NbCheck.NormalizeIdempotent | resources/nb-check.py:128-218 | running the normaliser on its own output, with any fresh ids, gives the same notebook |
| TomlCheck.Require | resources/toml-check.py:23-30 | on a table, the check passes exactly when the key is present; a failure is the missing-key error or a type error |
| TomlCheck.CheckMeta | resources/toml-check.py:17-45 | no `meta` is its own error; otherwise `title`, `description` and `icon` are required in that order, each error arising exactly when the earlier keys are present and this one is not; with all three present, the tags are checked before the destinations: a tag list with a non-lower-case string fails as not lower case, any invalid tags fail with a tag or type error (never the destinations error), and valid tags with an invalid list, string or table of destinations fail with the destinations error; a tag list with a non-string element, and truthy number or boolean destinations, raise; a string or table of tags fails as not lower case; a lower-case list of strings with a character outside `[a-z0-9]` fails as not alphanumeric |
| TomlCheck.ScrubFixed | resources/toml-check.py:38-39 | a tag survives the `[^a-z0-9]` substitution unchanged exactly when all its characters are in `[a-z0-9]` |
| TomlCheck.TagsVerdict | resources/toml-check.py:33-39 | the two tag checks pass exactly on a list of strings over `[a-z0-9]`, empty tags and an absent list included |
| TomlCheck.DestinationsVerdict | resources/toml-check.py:42-45 | the destinations check passes exactly when the value is falsy or holds nothing but `"spaces"` |
| TomlCheck.MetaVerdict | resources/toml-check.py:17-45 | the whole validation passes exactly on the declarative reading of a valid `meta` section |
| AuthorCheck.UrlPatternIff | resources/author-check.py:32 | `^https?://` matches exactly the references starting with `http://` or `https://` |
| AuthorCheck.CheckAuthor | resources/author-check.py:19-38 | the record passes exactly when `name`, `title` and `external` are present and an `image`, when given, is a string that is a URL or names an existing `common/images/author-images/<ref>.png`; the keys are required in that order; once they are present, an absent image or a URL passes, a non-string image is a type error, and any other image fails exactly when its file is missing, with an error naming that path |
| AuthorCheck.ImagePathShape | resources/author-check.py:35-36 | a relative reference is looked up as `common/images/author-images/<ref>.png`; an absolute one replaces the directory |
| PackageSamples.StripCell | resources/package-samples.py:23-27 | `metadata.execution` becomes `{}` and other metadata keys are kept; a present `outputs` becomes `[]`; nothing else changes |
| PackageSamples.StripOutputs | resources/package-samples.py:17-32 | no result without `cells`; every cell is stripped; notebook metadata keeps its keys, and `singlestore_connection`, when present, becomes `{}` only if there is at least one cell |
| PackageSamples.StripOutputsIdempotent | resources/package-samples.py:23-30 | stripping a stripped notebook changes nothing |
| PackageSamples.ParseNames | resources/package-samples.py:49 | a comma list yields one more name than it has commas, each without surrounding whitespace or commas |
| PackageSamples.ParseNamesOrder | resources/package-samples.py:49 | the i-th name is the stripped i-th comma-separated piece, and those pieces re-join to the input |
| PackageSamples.ParseNamesRoundTrip | resources/package-samples.py:49 | stripped, comma-free names joined with commas parse back to themselves |
| PackageSamples.NotebookNames | resources/package-samples.py:40-49 | `sample` selects the configured list, `all` the directory listing, anything else the parsed comma list |
| PackageSamples.ValidNotebooks | resources/package-samples.py:51-71 | succeeds exactly when every name has both required files, returning the names in input order; otherwise reports the first missing required file of a name, all earlier names being complete |
| PackageSamples.GetValidNotebooks | resources/package-samples.py:35-71 | for the names chosen by the `--notebooks` value: succeeds exactly when every name has both required files, returning the names; otherwise reports the first missing required file of one name, all earlier names being complete |
| PackageSamples.DestinationSegments | resources/package-samples.py:74-79 | the result's `/`-segments are the input's segments other than `notebooks`, in order, and include no `notebooks` |
| PackageSamples.DestinationPathNoSegment | resources/package-samples.py:74-79 | a path without a `notebooks` segment is unchanged |
| PackageSamples.DestinationPathIdempotent | resources/package-samples.py:74-79 | converting twice is converting once |
| EmbeddingApi.UsableIff | notebooks/inserting-embeddings-from-multiple-models-into-singlestore-using-external-functions/external_function_api.py:45 | an input is kept exactly when it is a string with a non-whitespace character |
| EmbeddingApi.UsableTexts | notebooks/inserting-embeddings-from-multiple-models-into-singlestore-using-external-functions/external_function_api.py:45 | every kept text is a usable input of the batch |
| EmbeddingApi.UsableTextsSound | notebooks/inserting-embeddings-from-multiple-models-into-singlestore-using-external-functions/external_function_api.py:45 | every kept text comes from an element of the batch |
| EmbeddingApi.UsableTextsComplete | notebooks/inserting-embeddings-from-multiple-models-into-singlestore-using-external-functions/external_function_api.py:45 | every usable input is kept |
| EmbeddingApi.UsableTextsAppend | notebooks/inserting-embeddings-from-multiple-models-into-singlestore-using-external-functions/external_function_api.py:45 | filtering preserves order: it distributes over concatenation |
| EmbeddingApi.LocalEmbeddings | notebooks/inserting-embeddings-from-multiple-models-into-singlestore-using-external-functions/external_function_api.py:25-34 | one local embedding per text, in order |
| EmbeddingApi.ProcessBatch | notebooks/inserting-embeddings-from-multiple-models-into-singlestore-using-external-functions/external_function_api.py:44-58 | nothing usable, or an unknown model, gives `[]`; `openai_embedding` sends all usable texts to the remote backend once and returns its answer, or `[]` if it raises; `hf_embedding` returns one vector per usable text, in order |
| EmbeddingApi.ProcessBatchCallsOnlyUsable | notebooks/inserting-embeddings-from-multiple-models-into-singlestore-using-external-functions/external_function_api.py:44-58 | no backend call carries a blank or non-string input, and no remote request is empty |
| EmbeddingApi.ProcessBatchIgnoresFiltered | notebooks/inserting-embeddings-from-multiple-models-into-singlestore-using-external-functions/external_function_api.py:44-58 | batches with the same usable texts get the same result |
| EmbeddingApi.RangeShape | notebooks/inserting-embeddings-from-multiple-models-into-singlestore-using-external-functions/external_function_api.py:82 | `range(0, N, B)` has `ceil(N/B)` elements, the k-th being `k*B` |
| EmbeddingApi.BatchesPartition | notebooks/inserting-embeddings-from-multiple-models-into-singlestore-using-external-functions/external_function_api.py:79-83 | the batches are `ceil(N/B)` non-empty slices of at most `B` rows; batch `k` is rows `k*B` to `k*B+B`; together they concatenate to the input |
| EmbeddingApi.BatchAt | notebooks/inserting-embeddings-from-multiple-models-into-singlestore-using-external-functions/external_function_api.py:82-83 | the k-th batch starts inside the rows and is the slice of rows `k*B` to `k*B+B` |
| EmbeddingApi.BatchResults | notebooks/inserting-embeddings-from-multiple-models-into-singlestore-using-external-functions/external_function_api.py:82-88 | one result per batch, in submission order, each computed with the model name of the batch's first row |
| EmbeddingApi.GetEmbedding | notebooks/inserting-embeddings-from-multiple-models-into-singlestore-using-external-functions/external_function_api.py:73-92 | the response has `min(rows, batches)` entries, pairing `row_ids[k]` with the whole result list of batch `k` |
| EmbeddingApi.GetEmbeddingShape | notebooks/inserting-embeddings-from-multiple-models-into-singlestore-using-external-functions/external_function_api.py:79-92 | the response has `min(N, ceil(N/1024))` entries; entry `k` pairs row `k`'s id with the embeddings of rows `1024k` to `1024k+1023`, computed with row `1024k`'s model name |

## Left out

- File, JSON and TOML I/O is left out: reading, parsing, `json.dumps` and writing the result. The model takes parsed values and returns the rewritten value.
- `print`, `sys.exit` and logging are left out. A failure is the first failing check, returned as a value.
- Each script's loop over files is left out. The model treats one file.
- The normaliser's check that the file is named `notebook.ipynb` (resources/nb-check.py:125-126) is left out. It is about the path, not the notebook.
- Only the notebook and cell keys the scripts read or write are represented. Other keys pass through the scripts untouched.
- A cell source is either a string or a list of strings. Other JSON types there are not modelled.
- `uuid.uuid4` is not modelled. The fresh header and footer ids are parameters.
- Python's non-ASCII whitespace and Unicode lower-casing are not modelled.
- Floats are not represented as values: neither TOML floats and dates nor JSON numbers with a fraction. In notebook metadata and outputs such values are only passed through or cleared. The embedding `row_id` is only copied into the response. A float `data` element is not a string, so the usable-text filter drops it, like the other non-string values the model does represent.
- NbCheck.HtmlEscape: its contract states only that no raw `<`, `>`, `"` or `'` remains. The exact entity for each character is in its definition.
- Where `meta` is a string or a list, the model gives Python's substring and membership semantics for `in`. Later checks that would raise on such a section all report `Uncaught`, whichever exception Python would name.
- `get_valid_notebooks` builds its paths from the global `args.notebooks_directory` rather than from its parameter. The model uses the directory parameter; the script's only caller passes the same value for both.
- Zip-archive writing and the directory walk in `package-samples.py` are left out. Only the path conversion they use is modelled.
- The thread pool in `get_embedding` is modelled as sequential evaluation in submission order.
- Pool sizing is left out. `max_workers=len(args) // 1024` is zero for fewer than 1024 rows, and whether that raises depends on `ThreadPoolExecutor`, which is not part of this model.
- Rows of the request that do not have exactly three fields are not modelled.
- The backends are function parameters. The OpenAI client, the transformer model and the floating-point pooling and normalisation are left out. The local backend is assumed not to raise.
- `json.dumps` of each batch result is represented by the result list itself.
- The Flask routing, the timing and `resources/lesson-check.py` are left out. The lesson check only tests for files in a directory listing.

=== FILE: authorcheck.dfy ===
/** Validation of an author's parsed TOML record. */
module AuthorCheck {
  import opened Wrappers
  import opened Text
  import opened Values

  /** The script's error messages; `Uncaught` is the `TypeError` that
      `re.match` raises on an image reference that is not a string. */
  datatype AuthorError =
    | MissingKey(key: string)
    | ImageMissing(path: string)
    | Uncaught

  /** Directory holding author images that are not URLs. */
  const AuthorImageDir: string := "common/images/author-images"

  /** `re.match(r'^https?://', s)`: the literal `http`, an optional `s`, then `://`. */
  predicate MatchesUrlPattern(s: string) {
    && StartsWith(s, "http")
    && var rest := s[4..];
       var afterS := if |rest| > 0 && rest[0] == 's' then rest[1..] else rest;
       StartsWith(afterS, "://")
  }

  /** The pattern accepts exactly the references that start with `http://` or `https://`. */
  lemma UrlPatternIff(s: string)
    ensures MatchesUrlPattern(s) <==> StartsWith(s, "http://") || StartsWith(s, "https://")
  {
    if StartsWith(s, "http://") {
      assert s[..4] == "http" && s[4..][..3] == "://";
    }
    if StartsWith(s, "https://") {
      forall i | 0 <= i < 3 ensures s[4..][1..][..3][i] == "://"[i] {
        assert s[..8][i + 5] == "https://"[i + 5];
      }
      assert s[..4] == "http" && s[4..][0] == 's' && s[4..][1..][..3] == "://";
    }
    if MatchesUrlPattern(s) {
      var rest := s[4..];
      if |rest| > 0 && rest[0] == 's' {
        assert s[..4] == "http" && rest[1..][..3] == "://";
        forall i | 0 <= i < 8 ensures s[i] == "https://"[i] {
          if i < 4 { assert s[..4][i] == s[i]; }
          else if i == 4 { assert rest[0] == s[4]; }
          else { assert rest[1..][..3][i - 5] == s[i]; }
        }
        assert s[..8] == "https://";
      } else {
        assert s[..4] == "http" && rest[..3] == "://";
        forall i | 0 <= i < 7 ensures s[i] == "http://"[i] {
          if i < 4 { assert s[..4][i] == s[i]; }
          else { assert rest[..3][i - 4] == s[i]; }
        }
        assert s[..7] == "http://";
      }
    }
  }

  /** Where a non-URL image reference must exist: `os.path.join` of the image
      directory and `<ref>.png`. */
  function ImagePath(reference: string): string {
    PathJoin(AuthorImageDir, reference + ".png")
  }

  /** Declarative reading of a valid author record: the three required keys
      are present, and an image, when given, is a string that is either a
      URL or names an existing file in the author image directory. */
  predicate AuthorValid(meta: map<string, Value>, isFile: string -> bool) {
    && "name" in meta
    && "title" in meta
    && "external" in meta
    && ("image" in meta ==>
          && meta["image"].Str?
          && (MatchesUrlPattern(meta["image"].s) || isFile(ImagePath(meta["image"].s))))
  }

  /** `check_author` on an already parsed record, with `os.path.isfile` as a parameter. */
  function CheckAuthor(meta: map<string, Value>, isFile: string -> bool): (r: Outcome<AuthorError>)
    ensures r == Pass <==> AuthorValid(meta, isFile)
    ensures "name" !in meta ==> r == Fail(MissingKey("name"))
    ensures "name" in meta && "title" !in meta ==> r == Fail(MissingKey("title"))
    ensures "name" in meta && "title" in meta && "external" !in meta ==> r == Fail(MissingKey("external"))
    ensures r.Fail? && r.error.MissingKey? ==> r.error.key !in meta
    ensures "name" in meta && "title" in meta && "external" in meta ==>
              && ("image" !in meta ==> r == Pass)
              && ("image" in meta && !meta["image"].Str? ==> r == Fail(Uncaught))
              && ("image" in meta && meta["image"].Str? && MatchesUrlPattern(meta["image"].s) ==> r == Pass)
              && ("image" in meta && meta["image"].Str? && !MatchesUrlPattern(meta["image"].s) ==>
                    r == (if isFile(ImagePath(meta["image"].s)) then Pass else Fail(ImageMissing(ImagePath(meta["image"].s)))))
  {
    if "name" !in meta then Fail(MissingKey("name"))
    else if "title" !in meta then Fail(MissingKey("title"))
    else if "external" !in meta then Fail(MissingKey("external"))
    else if "image" !in meta then Pass
    else match meta["image"]
      case Str(reference) =>
        if MatchesUrlPattern(reference) then Pass
        else if isFile(ImagePath(reference)) then Pass
        else Fail(ImageMissing(ImagePath(reference)))
      case _ => Fail(Uncaught)
  }

  /** A relative reference names a file inside the author image directory;
      an absolute one (leading `/`) is used as is, as `os.path.join` does. */
  lemma ImagePathShape(reference: string)
    ensures !StartsWith(reference, "/") ==> ImagePath(reference) == AuthorImageDir + "/" + reference + ".png"
    ensures StartsWith(reference, "/") ==> ImagePath(reference) == reference + ".png"
  {
    var b := reference + ".png";
    assert AuthorImageDir[|AuthorImageDir| - 1] == 's';
    if |reference| > 0 {
      assert b[..1] == reference[..1];
    } else {
      assert b[..1] == ".";
    }
    assert AuthorImageDir + "/" + b == AuthorImageDir + "/" + reference + ".png";
  }
}

=== FILE: embedding.dfy ===
/** The embedding external-function service: per-batch backend routing and the
    request handler that cuts the input into fixed-size batches and pairs row ids
    with batch results. Both backends are parameters; the remote one may raise,
    which is `None`. The worker pool is modelled as a sequential map in
    submission order, which is the order `future.result()` is collected in. */
module EmbeddingApi {
  import opened Wrappers
  import opened Text
  import opened Values
  import opened Seqs

  /** Model identifiers a request may carry. */
  const OpenAiEmbedding: string := "openai_embedding"
  const HfEmbedding: string := "hf_embedding"

  /** The remote model requested from the hosted API. */
  const RemoteModel: string := "text-embedding-ada-002"

  /** Rows per batch in the request handler. */
  const BatchSize: nat := 1024

  /** One `[row_id, data, model_name]` triple of the request body. */
  datatype Row = Row(rowId: Value, data: Value, modelName: Value)

  /** A backend invocation, recorded so that contracts can speak about what
      reached each backend. */
  datatype BackendCall = RemoteCall(texts: seq<string>) | LocalCall(text: string)

  /** What one `process_batch` call returns, with the backend calls it made. */
  datatype BatchRun<V> = BatchRun(embeddings: seq<V>, calls: seq<BackendCall>)

  // ---------------------------------------------------------------- process_batch

  /** `isinstance(text, str) and text.strip()`. */
  predicate Usable(v: Value) {
    v.Str? && |Strip(v.s)| > 0
  }

  /** A value is usable exactly when it is a string with a non-whitespace character. */
  lemma UsableIff(v: Value)
    ensures Usable(v) <==> v.Str? && !AllWs(v.s)
  {
  }

  /** The strings held by a list of string values. */
  function StrValues(vs: seq<Value>): (r: seq<string>)
    requires AllStr(vs)
    ensures |r| == |vs|
  {
    seq(|vs|, i requires 0 <= i < |vs| => vs[i].s)
  }

  lemma StrValuesAppend(a: seq<Value>, b: seq<Value>)
    requires AllStr(a) && AllStr(b)
    ensures AllStr(a + b) && StrValues(a + b) == StrValues(a) + StrValues(b)
  {
    assert forall i :: 0 <= i < |a + b| ==> (a + b)[i] == if i < |a| then a[i] else b[i - |a|];
  }

  /** The filtering comprehension of `process_batch`: the usable texts, in order. */
  function UsableTexts(batch: seq<Value>): (r: seq<string>)
    ensures |r| <= |batch|
    ensures forall i :: 0 <= i < |r| ==> Usable(Str(r[i]))
  {
    StrValues(Filter(batch, Usable))
  }

  /** Every kept text is a string of the batch. */
  lemma UsableTextsSound(batch: seq<Value>)
    ensures forall i :: 0 <= i < |UsableTexts(batch)| ==> Str(UsableTexts(batch)[i]) in batch
  {
    var kept := Filter(batch, Usable);
    FilterSound(batch, Usable);
    forall i | 0 <= i < |kept| ensures Str(UsableTexts(batch)[i]) in batch {
      assert Str(UsableTexts(batch)[i]) == kept[i];
    }
  }

  /** Every usable input is passed on. */
  lemma UsableTextsComplete(batch: seq<Value>)
    ensures forall k :: 0 <= k < |batch| && Usable(batch[k]) ==> batch[k].s in UsableTexts(batch)
  {
    var kept := Filter(batch, Usable);
    var u := UsableTexts(batch);
    FilterComplete(batch, Usable);
    forall k | 0 <= k < |batch| && Usable(batch[k]) ensures batch[k].s in u {
      var j :| 0 <= j < |kept| && kept[j] == batch[k];
      assert u[j] == batch[k].s;
    }
  }

  /** Filtering distributes over concatenation: surviving texts keep their order. */
  lemma UsableTextsAppend(a: seq<Value>, b: seq<Value>)
    ensures UsableTexts(a + b) == UsableTexts(a) + UsableTexts(b)
  {
    FilterAppend(a, b, Usable);
    StrValuesAppend(Filter(a, Usable), Filter(b, Usable));
  }

  /** `get_hf_embedding`: one local inference per text, in order. */
  function LocalEmbeddings<V>(texts: seq<string>, local: string -> V): (r: BatchRun<V>)
    ensures |r.embeddings| == |texts| && |r.calls| == |texts|
    ensures forall i :: 0 <= i < |texts| ==> r.embeddings[i] == local(texts[i]) && r.calls[i] == LocalCall(texts[i])
  {
    if |texts| == 0 then BatchRun([], [])
    else
      var rest := LocalEmbeddings(texts[1..], local);
      BatchRun([local(texts[0])] + rest.embeddings, [LocalCall(texts[0])] + rest.calls)
  }

  /** `process_batch(batch, model_name)`. The remote backend receives all usable
      texts in one request; a raise yields `[]`. An unknown model yields `[]`. */
  function ProcessBatch<V>(batch: seq<Value>, modelName: Value,
                           remote: (seq<string>, string) -> Option<seq<V>>,
                           local: string -> V): (r: BatchRun<V>)
    ensures |UsableTexts(batch)| == 0 ==> r == BatchRun([], [])
    ensures modelName != Str(OpenAiEmbedding) && modelName != Str(HfEmbedding) ==> r == BatchRun([], [])
    ensures modelName == Str(OpenAiEmbedding) && |UsableTexts(batch)| > 0 ==>
              && r.calls == [RemoteCall(UsableTexts(batch))]
              && r.embeddings == (match remote(UsableTexts(batch), RemoteModel)
                                  case Some(vs) => vs
                                  case None => [])
    ensures modelName == Str(HfEmbedding) ==>
              && |r.embeddings| == |UsableTexts(batch)| && |r.calls| == |UsableTexts(batch)|
              && forall i :: 0 <= i < |r.embeddings| ==>
                   r.embeddings[i] == local(UsableTexts(batch)[i]) && r.calls[i] == LocalCall(UsableTexts(batch)[i])
  {
    var texts := UsableTexts(batch);
    if |texts| == 0 then BatchRun([], [])
    else if modelName == Str(OpenAiEmbedding) then
      match remote(texts, RemoteModel)
      case Some(vs) => BatchRun(vs, [RemoteCall(texts)])
      case None => BatchRun([], [RemoteCall(texts)])
    else if modelName == Str(HfEmbedding) then LocalEmbeddings(texts, local)
    else BatchRun([], [])
  }

  /** A backend call that only carries strings of the batch with a
      non-whitespace character; a remote request is never empty. */
  predicate CallFromUsable(call: BackendCall, batch: seq<Value>) {
    match call
    case LocalCall(x) => Str(x) in batch && !AllWs(x)
    case RemoteCall(xs) => |xs| > 0 && forall j :: 0 <= j < |xs| ==> Str(xs[j]) in batch && !AllWs(xs[j])
  }

  /** No blank or non-string input reaches a backend. */
  lemma ProcessBatchCallsOnlyUsable<V>(batch: seq<Value>, modelName: Value,
                                       remote: (seq<string>, string) -> Option<seq<V>>,
                                       local: string -> V)
    ensures var r := ProcessBatch(batch, modelName, remote, local);
            forall i :: 0 <= i < |r.calls| ==> CallFromUsable(r.calls[i], batch)
  {
    var r := ProcessBatch(batch, modelName, remote, local);
    var texts := UsableTexts(batch);
    UsableTextsSound(batch);
    forall j | 0 <= j < |texts| ensures Str(texts[j]) in batch && !AllWs(texts[j]) {
      UsableIff(Str(texts[j]));
    }
    if |texts| > 0 && modelName == Str(OpenAiEmbedding) {
      assert r.calls == [RemoteCall(texts)];
    }
  }

  /** Inputs the filter drops have no influence: two batches with the same
      usable texts get the same result from `process_batch`. */
  lemma ProcessBatchIgnoresFiltered<V>(b1: seq<Value>, b2: seq<Value>, modelName: Value,
                                       remote: (seq<string>, string) -> Option<seq<V>>,
                                       local: string -> V)
    requires UsableTexts(b1) == UsableTexts(b2)
    ensures ProcessBatch(b1, modelName, remote, local) == ProcessBatch(b2, modelName, remote, local)
  {
  }

  // ---------------------------------------------------------------- batching

  /** Python's `range(start, stop, step)` for a positive step. */
  function Range(start: nat, stop: nat, step: nat): (r: seq<nat>)
    requires step > 0
    ensures forall k :: 0 <= k < |r| ==> start <= r[k] < stop
    decreases stop - start
  {
    if start >= stop then [] else [start] + Range(start + step, stop, step)
  }

  /** Ceiling division, the number of batches of `n` rows. */
  function CeilDiv(n: nat, b: nat): nat
    requires b > 0
  {
    (n + b - 1) / b
  }

  /** A positive multiple of `b` is at least `b`; kept apart from `DivUnique`,
      where the nonlinear fact is too costly to find in the larger context. */
  lemma MulAtLeast(k: int, b: int)
    requires k >= 1 && b > 0
    ensures k * b >= b
  {
  }

  /** Euclidean division has a unique quotient. */
  lemma DivUnique(x: int, b: int, q: int)
    requires b > 0 && q * b <= x < q * b + b
    ensures x / b == q
  {
    var q' := x / b;
    assert x == q' * b + x % b && 0 <= x % b < b;
    if q' < q {
      MulAtLeast(q - q', b);
      assert false;
    } else if q' > q {
      MulAtLeast(q' - q, b);
      assert false;
    }
  }

  /** One batch of `b` taken off `n` rows leaves one batch fewer. */
  lemma CeilDivStep(n: nat, b: nat)
    requires b > 0 && n > 0
    ensures n <= b ==> CeilDiv(n, b) == 1
    ensures n > b ==> CeilDiv(n, b) == CeilDiv(n - b, b) + 1
  {
    if n <= b {
      DivUnique(n + b - 1, b, 1);
    } else {
      var q := (n - 1) / b;
      assert q * b <= n - 1 < q * b + b;
      assert (q + 1) * b == q * b + b;
      DivUnique(n + b - 1, b, q + 1);
    }
  }

  /** `range(start, stop, step)` is `start, start + step, …`, `ceil((stop - start) / step)` values. */
  lemma {:induction false} RangeShape(start: nat, stop: nat, step: nat)
    requires step > 0
    ensures |Range(start, stop, step)| == (if start >= stop then 0 else CeilDiv(stop - start, step))
    ensures forall k :: 0 <= k < |Range(start, stop, step)| ==> Range(start, stop, step)[k] == start + k * step
    decreases stop - start
  {
    if start < stop {
      RangeShape(start + step, stop, step);
      var r := Range(start, stop, step);
      var rest := Range(start + step, stop, step);
      CeilDivStep(stop - start, step);
      forall k | 0 <= k < |r| ensures r[k] == start + k * step {
        if k > 0 {
          assert r[k] == rest[k - 1];
          assert (k - 1) * step + step == k * step;
        }
      }
    }
  }

  function Min(a: int, b: int): int {
    if a <= b then a else b
  }

  /** Python's `s[i:j]` for `0 <= i <= j`: indices past the end are clipped. */
  function PySlice<T>(s: seq<T>, i: nat, j: nat): (r: seq<T>)
    requires i <= j
    ensures |r| <= j - i
  {
    s[Min(i, |s|)..Min(j, |s|)]
  }

  /** The batches of the request handler, `args[i:i + b]` for each `i` in `range(0, len(args), b)`. */
  function Batches<T>(args: seq<T>, b: nat): seq<seq<T>>
    requires b > 0
  {
    var starts := Range(0, |args|, b);
    seq(|starts|, k requires 0 <= k < |starts| => PySlice(args, starts[k], starts[k] + b))
  }

  /** The concatenation of a sequence of sequences. */
  function Flatten<T>(xss: seq<seq<T>>): seq<T> {
    if |xss| == 0 then [] else xss[0] + Flatten(xss[1..])
  }

  /** The batches starting at `start`, in the recursive shape of `Range`. */
  function BatchesFrom<T>(args: seq<T>, start: nat, b: nat): seq<seq<T>>
    requires b > 0
    decreases |args| - start
  {
    if start >= |args| then [] else [PySlice(args, start, start + b)] + BatchesFrom(args, start + b, b)
  }

  lemma {:induction false} BatchesFromCover<T>(args: seq<T>, start: nat, b: nat)
    requires b > 0
    requires start <= |args|
    ensures Flatten(BatchesFrom(args, start, b)) == args[start..]
    ensures forall k :: 0 <= k < |BatchesFrom(args, start, b)| ==> 0 < |BatchesFrom(args, start, b)[k]| <= b
    decreases |args| - start
  {
    if start < |args| {
      var next := Min(start + b, |args|);
      BatchesFromCover(args, next, b);
      var rest := BatchesFrom(args, start + b, b);
      if start + b >= |args| {
        assert rest == [];
        assert Flatten([args[start..]] + rest) == args[start..] + Flatten(rest);
      } else {
        assert BatchesFrom(args, start, b)[1..] == rest;
        assert args[start..] == args[start..start + b] + args[start + b..];
      }
    }
  }

  lemma {:induction false} BatchesFromLength<T>(args: seq<T>, start: nat, b: nat)
    requires b > 0
    ensures |BatchesFrom(args, start, b)| == |Range(start, |args|, b)|
    decreases |args| - start
  {
    if start < |args| {
      BatchesFromLength(args, start + b, b);
    }
  }

  lemma {:induction false} BatchesFromAt<T>(args: seq<T>, start: nat, b: nat, k: nat)
    requires b > 0 && k < |BatchesFrom(args, start, b)|
    ensures k < |Range(start, |args|, b)|
    ensures BatchesFrom(args, start, b)[k] == PySlice(args, Range(start, |args|, b)[k], Range(start, |args|, b)[k] + b)
    decreases k
  {
    BatchesFromLength(args, start, b);
    if k > 0 {
      BatchesFromAt(args, start + b, b, k - 1);
    }
  }

  /** The batches, built by index, are the batches built recursively. */
  lemma BatchesAsFrom<T>(args: seq<T>, b: nat)
    requires b > 0
    ensures Batches(args, b) == BatchesFrom(args, 0, b)
  {
    BatchesFromLength(args, 0, b);
    forall k | 0 <= k < |BatchesFrom(args, 0, b)| ensures Batches(args, b)[k] == BatchesFrom(args, 0, b)[k] {
      BatchesFromAt(args, 0, b, k);
    }
  }

  /** Batch `k` starts at row `k * b`, which is a row of the input. */
  lemma BatchAt<T>(args: seq<T>, b: nat, k: nat)
    requires b > 0 && k < |Range(0, |args|, b)|
    ensures k * b < |args|
    ensures Batches(args, b)[k] == PySlice(args, k * b, k * b + b)
  {
    RangeShape(0, |args|, b);
    assert Range(0, |args|, b)[k] == k * b;
  }

  /** Batching is a partition: `ceil(N/B)` contiguous, non-empty slices of at
      most `B` rows, the k-th starting at row `k * B`, whose concatenation is the input. */
  lemma BatchesPartition<T>(args: seq<T>, b: nat)
    requires b > 0
    ensures |Batches(args, b)| == CeilDiv(|args|, b)
    ensures Flatten(Batches(args, b)) == args
    ensures forall k :: 0 <= k < |Batches(args, b)| ==> 0 < |Batches(args, b)[k]| <= b
    ensures forall k :: 0 <= k < |Batches(args, b)| ==> Batches(args, b)[k] == PySlice(args, k * b, k * b + b)
  {
    RangeShape(0, |args|, b);
    BatchesAsFrom(args, b);
    BatchesFromCover(args, 0, b);
    assert args[0..] == args;
    forall k | 0 <= k < |Batches(args, b)| ensures Batches(args, b)[k] == PySlice(args, k * b, k * b + b) {
      BatchAt(args, b, k);
    }
  }

  // ---------------------------------------------------------------- get_embedding

  function RowIds(rows: seq<Row>): seq<Value> {
    seq(|rows|, i requires 0 <= i < |rows| => rows[i].rowId)
  }

  function Texts(rows: seq<Row>): seq<Value> {
    seq(|rows|, i requires 0 <= i < |rows| => rows[i].data)
  }

  function ModelNames(rows: seq<Row>): seq<Value> {
    seq(|rows|, i requires 0 <= i < |rows| => rows[i].modelName)
  }

  /** Python's `zip`: pairs up to the shorter input. */
  function Zip<A, B>(a: seq<A>, b: seq<B>): (r: seq<(A, B)>)
    ensures |r| == Min(|a|, |b|)
    ensures forall k :: 0 <= k < |r| ==> r[k] == (a[k], b[k])
  {
    seq(Min(|a|, |b|), k requires 0 <= k < Min(|a|, |b|) => (a[k], b[k]))
  }

  /** The per-batch results, in submission order. Batch `k` starts at row
      `starts[k]` and is embedded with that row's model name. */
  function BatchResults<V>(rows: seq<Row>, b: nat,
                           remote: (seq<string>, string) -> Option<seq<V>>,
                           local: string -> V): (r: seq<seq<V>>)
    requires b > 0
    ensures |r| == |Range(0, |rows|, b)|
    ensures forall k :: 0 <= k < |r| ==>
              r[k] == ProcessBatch(Batches(Texts(rows), b)[k], rows[Range(0, |rows|, b)[k]].modelName, remote, local).embeddings
  {
    var batches := Batches(Texts(rows), b);
    var starts := Range(0, |rows|, b);
    seq(|starts|, k requires 0 <= k < |starts| =>
      ProcessBatch(batches[k], ModelNames(rows)[starts[k]], remote, local).embeddings)
  }

  /** `get_embedding` on a parsed request body: the response pairs `row_ids[k]`
      with the whole result list of batch `k` (the results are not flattened). */
  function GetEmbedding<V>(rows: seq<Row>,
                           remote: (seq<string>, string) -> Option<seq<V>>,
                           local: string -> V): (r: seq<(Value, seq<V>)>)
    ensures |r| == Min(|rows|, |Range(0, |rows|, BatchSize)|)
    ensures forall k :: 0 <= k < |r| ==>
              && r[k].0 == rows[k].rowId
              && r[k].1 == ProcessBatch(Batches(Texts(rows), BatchSize)[k],
                                        rows[Range(0, |rows|, BatchSize)[k]].modelName, remote, local).embeddings
  {
    Zip(RowIds(rows), BatchResults(rows, BatchSize, remote, local))
  }

  /** The response of `get_embedding` has `min(N, ceil(N / 1024))` entries; entry
      `k` carries row `k`'s id and the embeddings of rows `1024k` up to
      `1024k + 1023`, all computed with the model name of row `1024k`. */
  lemma GetEmbeddingShape<V>(rows: seq<Row>,
                             remote: (seq<string>, string) -> Option<seq<V>>,
                             local: string -> V)
    ensures var r := GetEmbedding(rows, remote, local);
            && |r| == Min(|rows|, CeilDiv(|rows|, BatchSize))
            && forall k :: 0 <= k < |r| ==>
                 && k * BatchSize < |rows|
                 && r[k].0 == rows[k].rowId
                 && r[k].1 == ProcessBatch(Texts(rows)[k * BatchSize..Min(k * BatchSize + BatchSize, |rows|)],
                                           rows[k * BatchSize].modelName, remote, local).embeddings
  {
    var r := GetEmbedding(rows, remote, local);
    RangeShape(0, |rows|, BatchSize);
    forall k | 0 <= k < |r|
      ensures k * BatchSize < |rows|
      ensures r[k].1 == ProcessBatch(Texts(rows)[k * BatchSize..Min(k * BatchSize + BatchSize, |rows|)],
                                     rows[k * BatchSize].modelName, remote, local).embeddings
    {
      EmbeddingAt(rows, k);
    }
  }

  /** Batch `k` of the response is the rows from `1024k`, and it starts at row `1024k`. */
  lemma EmbeddingAt(rows: seq<Row>, k: nat)
    requires k < |Range(0, |rows|, BatchSize)|
    ensures k * BatchSize < |rows|
    ensures Range(0, |rows|, BatchSize)[k] == k * BatchSize
    ensures Batches(Texts(rows), BatchSize)[k] == Texts(rows)[k * BatchSize..Min(k * BatchSize + BatchSize, |rows|)]
  {
    RangeShape(0, |rows|, BatchSize);
    BatchAt(Texts(rows), BatchSize, k);
  }
}

=== FILE: nbcheck.dfy ===
/** The notebook normaliser run over every sample notebook: it clears
    SingleStore metadata and execution state, trims trailing empty cells,
    canonicalises cell sources, regenerates the header and footer cells and
    renumbers code cells. Fresh cell ids are parameters. */
module NbCheck {
  import opened Wrappers
  import opened Text
  import opened Values
  import opened Notebook

  /** Why the normaliser stops: the icon is missing or unknown, the title is
      missing, or Python raises on a value of the wrong type. */
  datatype NbError = BadIcon | NoTitle | Uncaught

  /** The values substituted into the header template. */
  datatype HeaderParams = HeaderParams(backgroundColor: string, iconName: string, title: string)

  /** Prefix of the notebook-level metadata keys that are removed. */
  const SinglestorePrefix: string := "singlestore"

  /** The markers by which an existing header and footer cell are recognised. */
  const HeaderMarker: string := "id=\"singlestore-header\""
  const FooterMarker: string := "id=\"singlestore-footer\""

  /** Header background colour per icon name. */
  const IconColors: map<string, string> := map[
    "arrow-up-right-dots" := "rgba(255, 167, 103, 0.25)",
    "arrows-spin" := "rgba(124, 195, 235, 0.25)",
    "binary" := "rgba(210, 255, 153, 0.25)",
    "block-question" := "rgba(255, 224, 129, 0.25)",
    "bolt" := "rgba(235, 249, 245, 0.25)",
    "book-open-cover" := "rgba(124, 195, 235, 0.25)",
    "browser" := "rgba(235, 249, 245, 0.25)",
    "calendar-check" := "rgba(235, 249, 245, 0.25)",
    "camera-movie" := "rgba(255, 182, 176, 0.25)",
    "chart-network" := "rgba(210, 255, 153, 0.25)",
    "chart-scatter" := "rgba(124, 195, 235, 0.25)",
    "clouds" := "rgba(124, 195, 235, 0.25)",
    "confluent-logo" := "rgba(124, 195, 235, 0.25)",
    "crystal-ball" := "rgba(255, 167, 103, 0.25)",
    "database" := "rgba(235, 249, 245, 0.25)",
    "dollar-circle" := "rgba(255, 167, 103, 0.25)",
    "face-viewfinder" := "rgba(209, 153, 255, 0.25)",
    "file-export" := "rgba(255, 182, 176, 0.25)",
    "files" := "rgba(255, 224, 129, 0.25)",
    "filter" := "rgba(255, 167, 103, 0.25)",
    "gears" := "rgba(235, 249, 245, 0.25)",
    "globe" := "rgba(209, 153, 255, 0.25)",
    "handshake" := "rgba(255, 224, 129, 0.25)",
    "id-card" := "rgba(255, 182, 176, 0.25)",
    "image" := "rgba(255, 224, 129, 0.25)",
    "laptop" := "rgba(209, 153, 255, 0.25)",
    "lightbulb-on" := "rgba(255, 167, 103, 0.25)",
    "link" := "rgba(124, 195, 235, 0.25)",
    "location-dots" := "rgba(210, 255, 153, 0.25)",
    "lock" := "rgba(235, 249, 245, 0.25)",
    "map" := "rgba(255, 224, 129, 0.25)",
    "megaphone" := "rgba(124, 195, 235, 0.25)",
    "memo-circle-check" := "rgba(210, 255, 153, 0.25)",
    "message-dots" := "rgba(210, 255, 153, 0.25)",
    "nodes-circle" := "rgba(255, 224, 129, 0.25)",
    "notes" := "rgba(209, 153, 255, 0.25)",
    "pipeline" := "rgba(255, 167, 103, 0.25)",
    "radar" := "rgba(255, 182, 176, 0.25)",
    "rocket" := "rgba(210, 255, 153, 0.25)",
    "screwdriver-wrench" := "rgba(255, 182, 176, 0.25)",
    "server" := "rgba(255, 182, 176, 0.25)",
    "shield" := "rgba(124, 195, 235, 0.25)",
    "shop" := "rgba(235, 249, 245, 0.25)",
    "shopping-bag" := "rgba(255, 224, 129, 0.25)",
    "shopping-cart" := "rgba(255, 167, 103, 0.25)",
    "star" := "rgba(255, 182, 176, 0.25)",
    "user-plus" := "rgba(209, 153, 255, 0.25)",
    "users" := "rgba(210, 255, 153, 0.25)",
    "vector-circle" := "rgba(209, 153, 255, 0.25)",
    "waveform" := "rgba(209, 153, 255, 0.25)"
  ]

  // ---------------------------------------------------------------- templates

  // The fixed text of the header template, cut at its three placeholders
  // (`background_color`, `icon_name`, `title`), and of the footer.
  const HeaderBeforeColor: string := " style=\"display: flex; background-color: "
  const HeaderAfterColor: string := "; padding: 5px;\">\n"
  const HeaderIconOpen: string := "    <div id=\"icon-image\" style=\"width: 90px; height: 90px;\">\n"
  const HeaderBeforeIcon: string := "        <img width=\"100%\" height=\"100%\" src=\"https://raw.githubusercontent.com/singlestore-labs/spaces-notebooks/master/common/images/header-icons/"
  const HeaderAfterIcon: string := ".png\" />\n"
  const HeaderDivClose: string := "    </div>\n"
  const HeaderTextOpen: string := "    <div id=\"text\" style=\"padding: 5px; margin-left: 10px;\">\n"
  const HeaderBadge: string := "        <div id=\"badge\" style=\"display: inline-block; background-color: rgba(0, 0, 0, 0.15); border-radius: 4px; padding: 4px 8px; align-items: center; margin-top: 6px; margin-bottom: -2px; font-size: 80%\">SingleStore Notebooks</div>\n"
  const HeaderBeforeTitle: string := "        <h1 style=\"font-weight: 500; margin: 8px 0 0 4px;\">"
  const HeaderAfterTitle: string := "</h1>\n"
  const HeaderClose: string := "</div>"
  const FooterRule: string := " style=\"background-color: rgba(194, 193, 199, 0.25); height:2px; margin-bottom:10px\"></div>\n"
  const FooterLogo: string := "<div><img src=\"https://raw.githubusercontent.com/singlestore-labs/spaces-notebooks/master/common/images/singlestore-logo-grey.png\" style=\"padding: 0px; margin: 0px; height: 24px\"/></div>"

  /** The header template with its three placeholders filled in. */
  function HeaderLines(p: HeaderParams): seq<string> {
    [ "<div " + HeaderMarker + HeaderBeforeColor + p.backgroundColor + HeaderAfterColor,
      HeaderIconOpen,
      HeaderBeforeIcon + p.iconName + HeaderAfterIcon,
      HeaderDivClose,
      HeaderTextOpen,
      HeaderBadge,
      HeaderBeforeTitle + p.title + HeaderAfterTitle,
      HeaderDivClose,
      HeaderClose ]
  }

  /** The footer cell's lines. */
  const FooterLines: seq<string> := ["<div " + FooterMarker + FooterRule, FooterLogo]

  /** `html.escape` of one character (quotes included). */
  function EscapeChar(c: char): string {
    if c == '&' then "&amp;"
    else if c == '<' then "&lt;"
    else if c == '>' then "&gt;"
    else if c == '"' then "&quot;"
    else if c == '\'' then "&#x27;"
    else [c]
  }

  /** `html.escape(s)`: the result holds no character that could end the
      header's HTML element or attribute. */
  function HtmlEscape(s: string): (r: string)
    ensures forall i :: 0 <= i < |r| ==> r[i] != '<' && r[i] != '>' && r[i] != '"' && r[i] != '\''
    ensures |r| >= |s|
  {
    if |s| == 0 then "" else EscapeChar(s[0]) + HtmlEscape(s[1..])
  }

  /** `new_markdown_cell(cell_id, content)`. */
  function NewMarkdownCell(id: string, content: seq<string>): Cell {
    Cell(Some("markdown"), Some(id), Some(map[]), None, Some(Lines(content)), None, None)
  }

  /** The header parameters from the parsed `meta.toml`: the icon must be a
      key of `IconColors` and the title must be present, checked in that order. */
  function GetHeaderParams(toml: map<string, Value>): (r: Result<HeaderParams, NbError>)
    ensures "meta" !in toml ==> r == Err(BadIcon)
    ensures "meta" in toml && toml["meta"].Table? ==>
              var m := toml["meta"].entries;
              && (r == Err(BadIcon) <==> || "icon" !in m
                                          || (!m["icon"].Str? && !m["icon"].List? && !m["icon"].Table?)
                                          || (m["icon"].Str? && m["icon"].s !in IconColors))
              && (r == Err(NoTitle) <==> "icon" in m && m["icon"].Str? && m["icon"].s in IconColors && "title" !in m)
    ensures "meta" in toml && !toml["meta"].Table? ==> r == Err(Uncaught)
    ensures "meta" in toml && toml["meta"].Table? ==>
              var m := toml["meta"].entries;
              && ("icon" in m && (m["icon"].List? || m["icon"].Table?) ==> r == Err(Uncaught))
              && ("icon" in m && m["icon"].Str? && m["icon"].s in IconColors && "title" in m && !m["title"].Str? ==>
                    r == Err(Uncaught))
    ensures r.Ok? ==>
              && "meta" in toml && toml["meta"].Table?
              && var m := toml["meta"].entries;
                 && "icon" in m && m["icon"] == Str(r.value.iconName)
                 && "title" in m && m["title"].Str? && r.value.title == HtmlEscape(m["title"].s)
    ensures r.Ok? <==> && "meta" in toml && toml["meta"].Table?
                       && var m := toml["meta"].entries;
                          && "icon" in m && m["icon"].Str? && m["icon"].s in IconColors
                          && "title" in m && m["title"].Str?
    ensures r.Ok? ==> r.value.iconName in IconColors && r.value.backgroundColor == IconColors[r.value.iconName]
  {
    if "meta" !in toml then Err(BadIcon)
    else if !toml["meta"].Table? then Err(Uncaught)
    else
      var m := toml["meta"].entries;
      if "icon" !in m then Err(BadIcon)
      else if m["icon"].List? || m["icon"].Table? then Err(Uncaught)
      else if !m["icon"].Str? || m["icon"].s !in IconColors then Err(BadIcon)
      else if "title" !in m then Err(NoTitle)
      else if !m["title"].Str? then Err(Uncaught)
      else Ok(HeaderParams(IconColors[m["icon"].s], m["icon"].s, HtmlEscape(m["title"].s)))
  }

  // ---------------------------------------------------------------- metadata and outputs

  /** Remove the notebook-level metadata keys that start with `singlestore`. */
  function StripSinglestoreKeys(m: map<string, Value>): (r: map<string, Value>)
    ensures forall k :: k in r <==> k in m && !StartsWith(k, SinglestorePrefix)
    ensures forall k :: k in r ==> r[k] == m[k]
  {
    map k | k in m && !StartsWith(k, SinglestorePrefix) :: m[k]
  }

  /** A cell whose `metadata` and `outputs`, where present, are empty. */
  predicate Blank(c: Cell) {
    (c.metadata.None? || c.metadata == Some(map[])) && (c.outputs.None? || c.outputs == Some([]))
  }

  /** Blank a cell's `metadata` and `outputs` where those keys exist; add neither. */
  function BlankCell(c: Cell): (r: Cell)
    ensures r.metadata == (if c.metadata.Some? then Some(map[]) else None)
    ensures r.outputs == (if c.outputs.Some? then Some([]) else None)
    ensures r.(metadata := c.metadata, outputs := c.outputs) == c
    ensures Blank(r)
    ensures Blank(c) ==> r == c
  {
    c.(metadata := if c.metadata.Some? then Some(map[]) else None,
       outputs := if c.outputs.Some? then Some([]) else None)
  }

  predicate AllBlank(cells: seq<Cell>) {
    forall i :: 0 <= i < |cells| ==> Blank(cells[i])
  }

  /** Every slice of blank cells is blank. */
  lemma AllBlankSlice(cells: seq<Cell>, lo: nat, hi: nat)
    requires AllBlank(cells) && lo <= hi <= |cells|
    ensures AllBlank(cells[lo..hi])
  {
    forall i | 0 <= i < hi - lo ensures Blank(cells[lo..hi][i]) {
      assert cells[lo..hi][i] == cells[lo + i];
    }
  }

  function BlankAll(cells: seq<Cell>): (r: seq<Cell>)
    ensures |r| == |cells| && forall i :: 0 <= i < |cells| ==> r[i] == BlankCell(cells[i])
    ensures AllBlank(r)
  {
    seq(|cells|, i requires 0 <= i < |cells| => BlankCell(cells[i]))
  }

  // ---------------------------------------------------------------- trailing empty cells

  /** `'source' in cell and not cell['source']`: a present, empty source. */
  predicate EmptySource(c: Cell) {
    c.source == Some(Whole("")) || c.source == Some(Lines([]))
  }

  /** Pop trailing cells with a present, empty source, never the first cell. */
  function DropTrailingEmpty(cells: seq<Cell>): (r: seq<Cell>)
    ensures |r| <= |cells| && r == cells[..|r|]
    ensures |cells| > 0 ==> |r| > 0
    ensures forall i :: |r| <= i < |cells| ==> EmptySource(cells[i])
    ensures |r| > 1 ==> !EmptySource(r[|r| - 1])
    decreases |cells|
  {
    if |cells| > 1 && EmptySource(cells[|cells| - 1]) then DropTrailingEmpty(cells[..|cells| - 1])
    else cells
  }

  // ---------------------------------------------------------------- header and footer

  /** Remove an existing header cell (the first cell, when its source contains
      the header marker) and return the id the new header will carry. */
  function TakeHeader(cells: seq<Cell>, freshId: string): (r: (seq<Cell>, string))
    ensures var found := |cells| > 0 && Contains(Joined(cells[0].source), HeaderMarker);
            && (found ==> r.0 == cells[1..] && r.1 == (if cells[0].id.Some? then cells[0].id.value else freshId))
            && (!found ==> r == (cells, freshId))
  {
    if |cells| > 0 && Contains(Joined(cells[0].source), HeaderMarker) then
      (cells[1..], if cells[0].id.Some? then cells[0].id.value else freshId)
    else (cells, freshId)
  }

  /** Remove an existing footer cell (the last cell, when its source contains
      the footer marker) and return the id the new footer will carry. */
  function TakeFooter(cells: seq<Cell>, freshId: string): (r: (seq<Cell>, string))
    ensures var found := |cells| > 0 && Contains(Joined(cells[|cells| - 1].source), FooterMarker);
            && (found ==> r.0 == cells[..|cells| - 1]
                          && r.1 == (if cells[|cells| - 1].id.Some? then cells[|cells| - 1].id.value else freshId))
            && (!found ==> r == (cells, freshId))
  {
    if |cells| > 0 && Contains(Joined(cells[|cells| - 1].source), FooterMarker) then
      (cells[..|cells| - 1], if cells[|cells| - 1].id.Some? then cells[|cells| - 1].id.value else freshId)
    else (cells, freshId)
  }

  // ---------------------------------------------------------------- source canonical form

  /** One line's content: no line break inside and no trailing whitespace. */
  predicate BareLine(l: string) {
    '\n' !in l && NoTrailingWs(l)
  }

  /** The canonical shape of a cell source: every line but the last is a bare
      line followed by `\n`; the last is a non-empty bare line. */
  predicate Canonical(ls: seq<string>) {
    |ls| == 0 ||
    (&& (forall i :: 0 <= i < |ls| - 1 ==> |ls[i]| > 0 && ls[i][|ls[i]| - 1] == '\n' && BareLine(ls[i][..|ls[i]| - 1]))
     && BareLine(ls[|ls| - 1])
     && |ls[|ls| - 1]| > 0)
  }

  /** The lines of the right-stripped source text, each right-stripped. */
  function BareLines(source: Option<Source>): (r: seq<string>)
    ensures |r| >= 1
    ensures forall i :: 0 <= i < |r| ==> BareLine(r[i])
  {
    var pieces := Split(RStrip(Joined(source)), '\n');
    seq(|pieces|, i requires 0 <= i < |pieces| => RStrip(pieces[i]))
  }

  /** `[x.rstrip() + '\n' for x in text.rstrip().split('\n')]` with the last
      line right-stripped again, and `['']` replaced by `[]`. */
  function NormalizeSource(source: Option<Source>): seq<string> {
    var lines := StripTerminate(BareLines(source));
    if lines == [""] then [] else lines
  }

  /** `[x + '\n' for x in bs]` with the last line right-stripped again. */
  function StripTerminate(bs: seq<string>): (r: seq<string>)
    ensures |r| == |bs|
  {
    seq(|bs|, i requires 0 <= i < |bs| => if i < |bs| - 1 then bs[i] + "\n" else RStrip(bs[i] + "\n"))
  }

  /** Lines `bs`, each terminated by `\n` except the last. */
  function Terminate(bs: seq<string>): (r: seq<string>)
    ensures |r| == |bs|
  {
    seq(|bs|, i requires 0 <= i < |bs| => if i < |bs| - 1 then bs[i] + "\n" else bs[i])
  }

  /** Concatenating newline-terminated lines is joining them with `\n`. */
  lemma {:induction false} ConcatTerminate(bs: seq<string>)
    requires |bs| >= 1
    ensures Concat(Terminate(bs)) == Join(bs, '\n')
    decreases |bs|
  {
    if |bs| == 1 {
      assert Terminate(bs) == [bs[0]];
    } else {
      ConcatTerminate(bs[1..]);
      assert Terminate(bs)[0] == bs[0] + "\n";
      assert Terminate(bs)[1..] == Terminate(bs[1..]);
    }
  }

  /** Right-stripping a right-stripped line with a `\n` appended gives the line back. */
  lemma RStripNewline(x: string)
    requires NoTrailingWs(x)
    ensures RStrip(x + "\n") == x
  {
    assert (x + "\n")[..|x + "\n"| - 1] == x;
  }

  /** Right-stripping the last newline-terminated line again gives `Terminate`. */
  lemma TerminateLines(bs: seq<string>)
    requires |bs| >= 1 && NoTrailingWs(bs[|bs| - 1])
    ensures StripTerminate(bs) == Terminate(bs)
  {
    RStripNewline(bs[|bs| - 1]);
  }

  /** The bare lines are `[""]` for an all-whitespace text; otherwise the last
      of them is non-empty. */
  lemma BareLinesLast(source: Option<Source>)
    ensures AllWs(Joined(source)) ==> BareLines(source) == [""]
    ensures !AllWs(Joined(source)) ==> |BareLines(source)[|BareLines(source)| - 1]| > 0
  {
    var text := RStrip(Joined(source));
    RStripEmpty(Joined(source));
    if !AllWs(Joined(source)) {
      SplitLastChar(text, '\n');
      var pieces := Split(text, '\n');
      RStripOfStripped(pieces[|pieces| - 1]);
    }
  }

  /** The normalised source is the newline-terminated bare lines, with `[""]` replaced by `[]`. */
  lemma NormalizeSourceTerminated(source: Option<Source>)
    ensures var t := Terminate(BareLines(source));
            NormalizeSource(source) == (if t == [""] then [] else t)
  {
    TerminateLines(BareLines(source));
  }

  /** The normalised source is `[]` for an all-whitespace text, and otherwise
      the bare lines, newline-terminated, the last of them non-empty. */
  lemma NormalizeSourceShape(source: Option<Source>)
    ensures AllWs(Joined(source)) ==> NormalizeSource(source) == []
    ensures !AllWs(Joined(source)) ==>
              && NormalizeSource(source) == Terminate(BareLines(source))
              && |BareLines(source)[|BareLines(source)| - 1]| > 0
  {
    BareLinesLast(source);
    NormalizeSourceTerminated(source);
    if !AllWs(Joined(source)) {
      var bs := BareLines(source);
      assert Terminate(bs) != [""] by {
        assert Terminate(bs)[|bs| - 1] == bs[|bs| - 1];
      }
    }
  }

  /** Every normalised source is in canonical form, and it is empty exactly
      when the original source is all whitespace. */
  lemma NormalizeSourceCanonical(source: Option<Source>)
    ensures Canonical(NormalizeSource(source))
    ensures NormalizeSource(source) == [] <==> AllWs(Joined(source))
  {
    NormalizeSourceShape(source);
    if !AllWs(Joined(source)) {
      var bs := BareLines(source);
      var ls := NormalizeSource(source);
      forall i | 0 <= i < |ls| - 1
        ensures |ls[i]| > 0 && ls[i][|ls[i]| - 1] == '\n' && BareLine(ls[i][..|ls[i]| - 1])
      {
        assert ls[i][..|ls[i]| - 1] == bs[i];
      }
    }
  }

  /** The lines concatenate to the right-stripped text with each of its lines
      right-stripped. */
  lemma NormalizeSourceText(source: Option<Source>)
    ensures Concat(NormalizeSource(source)) == Join(BareLines(source), '\n')
  {
    NormalizeSourceShape(source);
    if !AllWs(Joined(source)) {
      ConcatTerminate(BareLines(source));
    }
  }

  /** The bare lines of a canonical source are its lines without their `\n`. */
  function Unterminate(ls: seq<string>): (bs: seq<string>)
    requires Canonical(ls) && |ls| > 0
    ensures |bs| == |ls|
    ensures forall i :: 0 <= i < |bs| ==> BareLine(bs[i])
    ensures Terminate(bs) == ls
    ensures |bs[|bs| - 1]| > 0
  {
    var n := |ls|;
    var bs := seq(n, i requires 0 <= i < n => if i < n - 1 then ls[i][..|ls[i]| - 1] else ls[i]);
    assert forall i :: 0 <= i < n - 1 ==> ls[i] == bs[i] + "\n";
    bs
  }

  /** The text of a non-empty canonical source is its bare lines joined by
      `\n`; it does not end in whitespace. */
  lemma CanonicalText(ls: seq<string>)
    requires Canonical(ls) && |ls| > 0
    ensures Joined(Some(Lines(ls))) == Join(Unterminate(ls), '\n')
    ensures NoTrailingWs(Join(Unterminate(ls), '\n')) && !AllWs(Join(Unterminate(ls), '\n'))
  {
    var bs := Unterminate(ls);
    ConcatTerminate(bs);
    JoinLastChar(bs, '\n');
  }

  /** The bare lines of a non-empty canonical source are its lines without their `\n`. */
  lemma CanonicalBareLines(ls: seq<string>)
    requires Canonical(ls) && |ls| > 0
    ensures BareLines(Some(Lines(ls))) == Unterminate(ls)
  {
    var bs := Unterminate(ls);
    CanonicalText(ls);
    RStripOfStripped(Join(bs, '\n'));
    SplitJoin(bs, '\n');
    forall i | 0 <= i < |bs| ensures RStrip(bs[i]) == bs[i] {
      RStripOfStripped(bs[i]);
    }
  }

  /** A source already in canonical form is left unchanged. */
  lemma NormalizeSourceFixpoint(ls: seq<string>)
    requires Canonical(ls)
    ensures NormalizeSource(Some(Lines(ls))) == ls
  {
    if |ls| > 0 {
      CanonicalText(ls);
      CanonicalBareLines(ls);
      NormalizeSourceShape(Some(Lines(ls)));
    }
  }

  // ---------------------------------------------------------------- per-cell tidy

  /** A cell that the per-cell loop leaves unchanged: canonical list source,
      and no `attachments: null`. */
  predicate Settled(c: Cell) {
    && c.source.Some? && c.source.value.Lines? && Canonical(c.source.value.lines)
    && c.attachments != Some(Null)
  }

  predicate AllSettled(cells: seq<Cell>) {
    forall i :: 0 <= i < |cells| ==> Settled(cells[i])
  }

  /** What the per-cell loop writes back as the source: canonical lines that
      concatenate to the right-stripped text. */
  function TidiedSource(source: Option<Source>): (ls: seq<string>)
    ensures Canonical(ls)
    ensures Concat(ls) == Join(BareLines(source), '\n')
  {
    NormalizeSourceCanonical(source);
    NormalizeSourceText(source);
    NormalizeSource(source)
  }

  /** The per-cell loop: canonical source, and `attachments: null` becomes `{}`. */
  function TidyCell(c: Cell): (r: Cell)
    ensures r.(source := c.source, attachments := c.attachments) == c
    ensures r.attachments == (if c.attachments == Some(Null) then Some(Table(map[])) else c.attachments)
    ensures Settled(r)
    ensures Blank(r) <==> Blank(c)
    ensures Concat(r.source.value.lines) == Join(BareLines(c.source), '\n')
  {
    c.(source := Some(Lines(TidiedSource(c.source))),
       attachments := if c.attachments == Some(Null) then Some(Table(map[])) else c.attachments)
  }

  /** A settled cell is its own tidy form. */
  lemma TidyCellFixpoint(c: Cell)
    requires Settled(c)
    ensures TidyCell(c) == c
  {
    NormalizeSourceFixpoint(c.source.value.lines);
  }

  function TidyAll(cells: seq<Cell>): (r: seq<Cell>)
    ensures |r| == |cells| && forall i :: 0 <= i < |cells| ==> r[i] == TidyCell(cells[i])
    ensures AllSettled(r)
    ensures AllBlank(cells) ==> AllBlank(r)
  {
    seq(|cells|, i requires 0 <= i < |cells| => TidyCell(cells[i]))
  }

  // ---------------------------------------------------------------- execution counts

  /** The number of code cells. */
  function CodeCount(cells: seq<Cell>): nat {
    if |cells| == 0 then 0 else (if IsCode(cells[0]) then 1 else 0) + CodeCount(cells[1..])
  }

  /** A cell as numbering leaves it: a code cell gets `execution_count` `next`. */
  function Stamp(c: Cell, next: nat): Cell {
    if IsCode(c) then c.(executionCount := Some(Int(next))) else c
  }

  /** The number the cell after `c` gets, if it is a code cell. */
  function Advance(c: Cell, next: nat): nat {
    if IsCode(c) then next + 1 else next
  }

  /** Number code cells from `next` on, in document order. */
  function NumberCodeCells(cells: seq<Cell>, next: nat): (r: seq<Cell>)
    ensures |r| == |cells|
    decreases |cells|
  {
    if |cells| == 0 then []
    else [Stamp(cells[0], next)] + NumberCodeCells(cells[1..], Advance(cells[0], next))
  }

  /** The code cell with `j` code cells before it gets `next + j`; every other
      cell, and every other field, is unchanged. */
  lemma {:induction false} NumberCodeCellsAt(cells: seq<Cell>, next: nat, i: nat)
    requires i < |cells|
    ensures IsCode(cells[i]) ==>
              NumberCodeCells(cells, next)[i] == cells[i].(executionCount := Some(Int(next + CodeCount(cells[..i]))))
    ensures !IsCode(cells[i]) ==> NumberCodeCells(cells, next)[i] == cells[i]
    decreases i
  {
    if i > 0 {
      NumberCodeCellsAt(cells[1..], Advance(cells[0], next), i - 1);
      assert cells[..i][1..] == cells[1..][..i - 1];
    }
  }

  /** `NumberCodeCellsAt` for every index at once. */
  lemma NumberCodeCellsAll(cells: seq<Cell>, next: nat)
    ensures forall i :: 0 <= i < |cells| && !IsCode(cells[i]) ==> NumberCodeCells(cells, next)[i] == cells[i]
    ensures forall i :: 0 <= i < |cells| && IsCode(cells[i]) ==>
              NumberCodeCells(cells, next)[i] == cells[i].(executionCount := Some(Int(next + CodeCount(cells[..i]))))
  {
    forall i | 0 <= i < |cells| {
      NumberCodeCellsAt(cells, next, i);
    }
  }

  /** Numbering a concatenation numbers the second part from where the first stopped. */
  lemma {:induction false} NumberAppend(a: seq<Cell>, b: seq<Cell>, next: nat)
    ensures NumberCodeCells(a + b, next) == NumberCodeCells(a, next) + NumberCodeCells(b, next + CodeCount(a))
    decreases |a|
  {
    if |a| == 0 {
      assert a + b == b;
    } else {
      var head := Stamp(a[0], next);
      var next' := Advance(a[0], next);
      var rest := NumberCodeCells(a[1..], next');
      var tail := NumberCodeCells(b, next' + CodeCount(a[1..]));
      assert (a + b)[0] == a[0] && (a + b)[1..] == a[1..] + b;
      assert next' + CodeCount(a[1..]) == next + CodeCount(a);
      NumberAppend(a[1..], b, next');
      calc {
        NumberCodeCells(a + b, next);
        [head] + NumberCodeCells(a[1..] + b, next');
        [head] + (rest + tail);
        ([head] + rest) + tail;
      }
    }
  }

  /** Renumbering already numbered cells changes nothing. */
  lemma {:induction false} NumberIdempotent(cells: seq<Cell>, next: nat)
    ensures NumberCodeCells(NumberCodeCells(cells, next), next) == NumberCodeCells(cells, next)
    decreases |cells|
  {
    if |cells| > 0 {
      var once := NumberCodeCells(cells, next);
      var next' := Advance(cells[0], next);
      NumberIdempotent(cells[1..], next');
      assert once[0] == Stamp(cells[0], next) && once[1..] == NumberCodeCells(cells[1..], next');
      assert Stamp(once[0], next) == once[0] && Advance(once[0], next) == next';
    }
  }

  /** Numbering a header, some cells and a footer, neither of them code,
      numbers just the cells in between from 1. */
  lemma NumberFrame(header: Cell, mid: seq<Cell>, footer: Cell)
    requires !IsCode(header) && !IsCode(footer)
    ensures NumberCodeCells([header] + mid + [footer], 1) == [header] + NumberCodeCells(mid, 1) + [footer]
  {
    NumberAppend([header] + mid, [footer], 1);
    NumberAppend([header], mid, 1);
  }

  // ---------------------------------------------------------------- the whole rewrite

  /** The cells kept between the new header and footer, with the ids the new
      header and footer will carry: blank, drop trailing empty cells, take out
      the old header and footer, tidy every remaining cell. */
  function Prepare(cells: seq<Cell>, freshHeaderId: string, freshFooterId: string): (r: (seq<Cell>, string, string))
    ensures |r.0| <= |cells|
    ensures AllBlank(r.0) && AllSettled(r.0)
    ensures exists lo: nat, hi: nat :: && lo <= 1 && lo <= hi <= |cells|
                                       && r.0 == TidyAll(BlankAll(cells)[lo..hi])
                                       && forall j :: hi < j < |cells| ==> EmptySource(cells[j])
  {
    var trimmed := DropTrailingEmpty(BlankAll(cells));
    var (afterHeader, headerId) := TakeHeader(trimmed, freshHeaderId);
    var (body, footerId) := TakeFooter(afterHeader, freshFooterId);
    KeptSlice(cells, trimmed, afterHeader, body);
    (TidyAll(body), headerId, footerId)
  }

  /** The cells kept by `Prepare` are a slice of the blanked cells that starts
      at index 0 or 1, and only empty cells follow it (beyond a dropped footer). */
  lemma KeptSlice(cells: seq<Cell>, trimmed: seq<Cell>, afterHeader: seq<Cell>, body: seq<Cell>)
    requires trimmed == DropTrailingEmpty(BlankAll(cells))
    requires afterHeader == trimmed || (|trimmed| > 0 && afterHeader == trimmed[1..])
    requires body == afterHeader || (|afterHeader| > 0 && body == afterHeader[..|afterHeader| - 1])
    ensures |body| <= |cells| && AllBlank(body)
    ensures exists lo: nat, hi: nat :: && lo <= 1 && lo <= hi <= |cells|
                                       && body == BlankAll(cells)[lo..hi]
                                       && forall j :: hi < j < |cells| ==> EmptySource(cells[j])
  {
    var blanked := BlankAll(cells);
    var lo := |trimmed| - |afterHeader|;
    var hi := lo + |body|;
    TrimSlice(blanked, trimmed, afterHeader, body);
    AllBlankSlice(blanked, lo, hi);
    BlankedTail(cells);
  }

  /** Taking off at most one element at the front and then at most one at the
      back of a prefix leaves a slice of the whole. */
  lemma TrimSlice<T>(s: seq<T>, t: seq<T>, a: seq<T>, b: seq<T>)
    requires |t| <= |s| && t == s[..|t|]
    requires a == t || (|t| > 0 && a == t[1..])
    requires b == a || (|a| > 0 && b == a[..|a| - 1])
    ensures |t| - |a| <= 1 && |t| <= |t| - |a| + |b| + 1
    ensures b == s[|t| - |a|..|t| - |a| + |b|]
  {
  }

  /** Only cells with a present, empty source follow the cells kept by `DropTrailingEmpty`. */
  lemma BlankedTail(cells: seq<Cell>)
    ensures forall j :: |DropTrailingEmpty(BlankAll(cells))| <= j < |cells| ==> EmptySource(cells[j])
  {
    var blanked := BlankAll(cells);
    forall j | |DropTrailingEmpty(blanked)| <= j < |cells| ensures EmptySource(cells[j]) {
      assert blanked[j] == BlankCell(cells[j]);
    }
  }

  /** The new cell list: the regenerated header, the kept cells and the
      regenerated footer, with code cells numbered from 1 in document order. */
  function Rebuild(p: HeaderParams, prep: (seq<Cell>, string, string)): (cs: seq<Cell>)
    ensures cs == [NewMarkdownCell(prep.1, HeaderLines(p))] + NumberCodeCells(prep.0, 1) + [NewMarkdownCell(prep.2, FooterLines)]
    ensures |cs| == |prep.0| + 2
    ensures cs[0] == NewMarkdownCell(prep.1, HeaderLines(p))
    ensures cs[|cs| - 1] == NewMarkdownCell(prep.2, FooterLines)
    ensures forall i :: 0 <= i < |prep.0| && !IsCode(prep.0[i]) ==> cs[i + 1] == prep.0[i]
    ensures forall i :: 0 <= i < |prep.0| && IsCode(prep.0[i]) ==>
              cs[i + 1] == prep.0[i].(executionCount := Some(Int(1 + CodeCount(prep.0[..i]))))
  {
    var header := NewMarkdownCell(prep.1, HeaderLines(p));
    var footer := NewMarkdownCell(prep.2, FooterLines);
    NumberFrame(header, prep.0, footer);
    NumberCodeCellsAll(prep.0, 1);
    NumberCodeCells([header] + prep.0 + [footer], 1)
  }

  /** The notebook as rewritten by one run of the checker on one file, or the
      error it stops with: the header parameters are checked after the cell
      rewrite, but the rewrite cannot fail, so only they decide the outcome. A
      notebook without `cells` is processed on a detached empty list, so its
      output still has no `cells`. */
  function Normalize(nb: Nb, toml: map<string, Value>, freshHeaderId: string, freshFooterId: string)
    : (r: Result<Nb, NbError>)
    ensures r.Err? <==> GetHeaderParams(toml).Err?
    ensures r.Err? ==> r.error == GetHeaderParams(toml).error
    ensures r.Ok? ==> r.value.metadata == (if nb.metadata.Some? then Some(StripSinglestoreKeys(nb.metadata.value)) else None)
    ensures r.Ok? ==> (r.value.cells.Some? <==> nb.cells.Some?)
    ensures r.Ok? && nb.cells.Some? ==>
              r.value.cells.value == Rebuild(GetHeaderParams(toml).value, Prepare(nb.cells.value, freshHeaderId, freshFooterId))
  {
    match GetHeaderParams(toml)
    case Err(e) => Err(e)
    case Ok(p) =>
      var md := if nb.metadata.Some? then Some(StripSinglestoreKeys(nb.metadata.value)) else None;
      match nb.cells
      case None => Ok(Nb(md, None))
      case Some(cells) => Ok(Nb(md, Some(Rebuild(p, Prepare(cells, freshHeaderId, freshFooterId)))))
  }

  // ---------------------------------------------------------------- idempotence

  /** The regenerated header is recognised as a header on the next run. */
  lemma HeaderHasMarker(p: HeaderParams)
    ensures Contains(Concat(HeaderLines(p)), HeaderMarker)
  {
    var ls := HeaderLines(p);
    ContainsInfix("<div ", HeaderMarker, HeaderBeforeColor + p.backgroundColor + HeaderAfterColor);
    assert ls[0] == "<div " + HeaderMarker + (HeaderBeforeColor + p.backgroundColor + HeaderAfterColor);
    ContainsAppend(ls[0], Concat(ls[1..]), HeaderMarker);
  }

  /** The regenerated footer is recognised as a footer on the next run. */
  lemma FooterHasMarker()
    ensures Contains(Concat(FooterLines), FooterMarker)
  {
    var ls := FooterLines;
    ContainsInfix("<div ", FooterMarker, FooterRule);
    ContainsAppend(ls[0], Concat(ls[1..]), FooterMarker);
  }

  /** Numbering only touches execution counts, so blank, settled cells stay so. */
  lemma NumberKeepsSettled(cells: seq<Cell>, next: nat)
    requires AllBlank(cells) && AllSettled(cells)
    ensures AllBlank(NumberCodeCells(cells, next)) && AllSettled(NumberCodeCells(cells, next))
  {
    NumberCodeCellsAll(cells, next);
  }

  lemma BlankAllFixpoint(cells: seq<Cell>)
    requires AllBlank(cells)
    ensures BlankAll(cells) == cells
  {
  }

  lemma TidyAllFixpoint(cells: seq<Cell>)
    requires AllSettled(cells)
    ensures TidyAll(cells) == cells
  {
    forall i | 0 <= i < |cells| ensures TidyCell(cells[i]) == cells[i] {
      TidyCellFixpoint(cells[i]);
    }
  }

  /** Between a header and a footer that carry their markers, blank settled
      cells survive a run unchanged, and the header and footer ids are kept. */
  lemma PrepareFramed(headerId: string, headerLines: seq<string>, mid: seq<Cell>,
                      footerId: string, footerLines: seq<string>,
                      freshHeaderId: string, freshFooterId: string)
    requires Contains(Concat(headerLines), HeaderMarker) && Contains(Concat(footerLines), FooterMarker)
    requires AllBlank(mid) && AllSettled(mid)
    ensures Prepare([NewMarkdownCell(headerId, headerLines)] + mid + [NewMarkdownCell(footerId, footerLines)],
                    freshHeaderId, freshFooterId)
            == (mid, headerId, footerId)
  {
    var header := NewMarkdownCell(headerId, headerLines);
    var footer := NewMarkdownCell(footerId, footerLines);
    var cs := [header] + mid + [footer];
    FramedBlank(header, mid, footer);
    BlankAllFixpoint(cs);
    assert footerLines != [];
    assert DropTrailingEmpty(cs) == cs by {
      assert cs[|cs| - 1] == footer;
    }
    assert TakeHeader(cs, freshHeaderId) == (mid + [footer], headerId) by {
      assert cs[0] == header && cs[1..] == mid + [footer];
    }
    assert TakeFooter(mid + [footer], freshFooterId) == (mid, footerId) by {
      assert (mid + [footer])[..|mid|] == mid;
    }
    TidyAllFixpoint(mid);
    PrepareSteps(cs, freshHeaderId, freshFooterId);
  }

  /** `Prepare` as the composition of its steps. */
  lemma PrepareSteps(cells: seq<Cell>, freshHeaderId: string, freshFooterId: string)
    ensures var (afterHeader, headerId) := TakeHeader(DropTrailingEmpty(BlankAll(cells)), freshHeaderId);
            var (body, footerId) := TakeFooter(afterHeader, freshFooterId);
            Prepare(cells, freshHeaderId, freshFooterId) == (TidyAll(body), headerId, footerId)
  {
  }

  /** Framing blank cells with two new markdown cells keeps every cell blank. */
  lemma FramedBlank(header: Cell, mid: seq<Cell>, footer: Cell)
    requires Blank(header) && Blank(footer) && AllBlank(mid)
    ensures AllBlank([header] + mid + [footer])
  {
    var cs := [header] + mid + [footer];
    forall i | 0 <= i < |cs| ensures Blank(cs[i]) {
      if 0 < i < |cs| - 1 {
        assert cs[i] == mid[i - 1];
      }
    }
  }

  /** The next run finds exactly the header and footer it put there, and
      keeps the numbered cells in between unchanged. */
  lemma PrepareRebuilt(p: HeaderParams, prep: (seq<Cell>, string, string), freshHeaderId: string, freshFooterId: string)
    requires AllBlank(prep.0) && AllSettled(prep.0)
    ensures Prepare(Rebuild(p, prep), freshHeaderId, freshFooterId) == (NumberCodeCells(prep.0, 1), prep.1, prep.2)
  {
    NumberKeepsSettled(prep.0, 1);
    HeaderHasMarker(p);
    FooterHasMarker();
    PrepareFramed(prep.1, HeaderLines(p), NumberCodeCells(prep.0, 1), prep.2, FooterLines, freshHeaderId, freshFooterId);
  }

  /** Removing the `singlestore` keys twice is removing them once. */
  lemma StripSinglestoreKeysIdempotent(m: map<string, Value>)
    ensures StripSinglestoreKeys(StripSinglestoreKeys(m)) == StripSinglestoreKeys(m)
  {
  }

  /** Running the checker on its own output, with any fresh ids, reproduces
      that output: the header and footer keep their ids and every other cell
      is already in normal form. */
  lemma NormalizeIdempotent(nb: Nb, toml: map<string, Value>, freshHeaderId: string, freshFooterId: string,
                            freshHeaderId2: string, freshFooterId2: string)
    requires Normalize(nb, toml, freshHeaderId, freshFooterId).Ok?
    ensures Normalize(Normalize(nb, toml, freshHeaderId, freshFooterId).value, toml, freshHeaderId2, freshFooterId2)
            == Normalize(nb, toml, freshHeaderId, freshFooterId)
  {
    var once := Normalize(nb, toml, freshHeaderId, freshFooterId).value;
    var p := GetHeaderParams(toml).value;
    if nb.metadata.Some? {
      StripSinglestoreKeysIdempotent(nb.metadata.value);
    }
    if nb.cells.Some? {
      var prep := Prepare(nb.cells.value, freshHeaderId, freshFooterId);
      PrepareRebuilt(p, prep, freshHeaderId2, freshFooterId2);
      NumberIdempotent(prep.0, 1);
      assert Rebuild(p, Prepare(once.cells.value, freshHeaderId2, freshFooterId2)) == once.cells.value;
    }
  }
}

=== FILE: notebook.dfy ===
/** The parts of a Jupyter notebook record (nbformat 4) that the scripts read or write.
    Keys the scripts never touch are not represented: every operation leaves them as they are. */
module Notebook {
  import opened Wrappers
  import opened Text
  import opened Values

  /** A cell's `source`: nbformat allows a single string or a list of lines. */
  datatype Source = Whole(text: string) | Lines(lines: seq<string>)

  /** One cell; `None` is an absent key. */
  datatype Cell = Cell(
    cellType: Option<string>,
    id: Option<string>,
    metadata: Option<map<string, Value>>,
    outputs: Option<seq<Value>>,
    source: Option<Source>,
    executionCount: Option<Value>,
    attachments: Option<Value>)

  /** A notebook: its top-level `metadata` and `cells`, each possibly absent. */
  datatype Nb = Nb(metadata: Option<map<string, Value>>, cells: Option<seq<Cell>>)

  /** `cell.get('source', [])` joined into one string, as both scripts do. */
  function Joined(source: Option<Source>): string {
    match source
    case None => ""
    case Some(Whole(t)) => t
    case Some(Lines(ls)) => Concat(ls)
  }

  /** True iff the cell has a `cell_type` of `code`. */
  predicate IsCode(c: Cell) {
    c.cellType == Some("code")
  }
}

=== FILE: packaging.dfy ===
/** The pure helpers of the sample-packaging script: output stripping, notebook
    selection and the mapping of repository paths to archive paths. */
module PackageSamples {
  import opened Wrappers
  import opened Text
  import opened Values
  import opened Seqs
  import opened Notebook

  const NotebookFileName: string := "notebook.ipynb"

  /** The files every packaged notebook directory must contain, checked in this order. */
  const RequiredFiles: seq<string> := [NotebookFileName, "meta.toml"]

  /** The notebook-level metadata key that holds a saved database connection. */
  const ConnectionKey: string := "singlestore_connection"

  /** The path segment dropped from archive paths. */
  const NotebooksSegment: string := "notebooks"

  // ---------------------------------------------------------------- strip_outputs

  /** One iteration of the per-cell loop: `metadata.execution` becomes `{}` and
      `outputs` becomes `[]`, where those keys exist. */
  function StripCell(c: Cell): (r: Cell)
    ensures r.outputs == (if c.outputs.Some? then Some([]) else None)
    ensures r.metadata.Some? <==> c.metadata.Some?
    ensures c.metadata.Some? ==>
              && r.metadata.value.Keys == c.metadata.value.Keys + {"execution"}
              && r.metadata.value["execution"] == Table(map[])
              && forall k :: k in c.metadata.value && k != "execution" ==> r.metadata.value[k] == c.metadata.value[k]
    ensures r.(metadata := c.metadata, outputs := c.outputs) == c
  {
    var md := if c.metadata.Some? then Some(c.metadata.value["execution" := Table(map[])]) else None;
    var outs := if c.outputs.Some? then Some([]) else None;
    c.(metadata := md, outputs := outs)
  }

  /** `strip_outputs` on a parsed notebook; `None` is the `KeyError` of a
      notebook without `cells`. The connection reset sits inside the cell loop,
      so it happens only when there is at least one cell. */
  function StripOutputs(nb: Nb): (r: Option<Nb>)
    ensures r.None? <==> nb.cells.None?
    ensures r.Some? ==>
              && r.value.cells.Some?
              && |r.value.cells.value| == |nb.cells.value|
              && (forall i :: 0 <= i < |nb.cells.value| ==> r.value.cells.value[i] == StripCell(nb.cells.value[i]))
    ensures r.Some? ==> (r.value.metadata.Some? <==> nb.metadata.Some?)
    ensures r.Some? && nb.metadata.Some? ==>
              && r.value.metadata.value.Keys == nb.metadata.value.Keys
              && forall k :: k in nb.metadata.value && k != ConnectionKey ==> r.value.metadata.value[k] == nb.metadata.value[k]
    ensures r.Some? && nb.metadata.Some? && ConnectionKey in nb.metadata.value ==>
              r.value.metadata.value[ConnectionKey]
                == (if |nb.cells.value| > 0 then Table(map[]) else nb.metadata.value[ConnectionKey])
  {
    match nb.cells
    case None => None
    case Some(cells) =>
      var md :=
        if |cells| > 0 && nb.metadata.Some? && ConnectionKey in nb.metadata.value
        then Some(nb.metadata.value[ConnectionKey := Table(map[])])
        else nb.metadata;
      Some(Nb(md, Some(seq(|cells|, i requires 0 <= i < |cells| => StripCell(cells[i])))))
  }

  /** Stripping an already stripped notebook changes nothing. */
  lemma StripOutputsIdempotent(nb: Nb)
    requires nb.cells.Some?
    ensures StripOutputs(StripOutputs(nb).value) == StripOutputs(nb)
  {
    var once := StripOutputs(nb).value;
    var twice := StripOutputs(once).value;
    var cs := once.cells.value;
    forall i | 0 <= i < |cs| ensures StripCell(cs[i]) == cs[i] {
      var c := cs[i];
      if c.metadata.Some? {
        assert c.metadata.value["execution" := Table(map[])] == c.metadata.value;
      }
    }
    assert twice.cells.value == cs;
    if once.metadata.Some? && ConnectionKey in once.metadata.value && |cs| > 0 {
      assert once.metadata.value[ConnectionKey := Table(map[])] == once.metadata.value;
    }
  }

  // ---------------------------------------------------------------- notebook selection

  /** `list(map(str.strip, notebooks.split(',')))`. */
  function ParseNames(notebooks: string): (r: seq<string>)
    ensures |r| == Count(notebooks, ',') + 1
    ensures forall i :: 0 <= i < |r| ==> NoLeadingWs(r[i]) && NoTrailingWs(r[i]) && ',' !in r[i]
  {
    var raw := Split(notebooks, ',');
    seq(|raw|, i requires 0 <= i < |raw| => Strip(raw[i]))
  }

  /** The names come out in input order: the i-th name is the stripped i-th
      comma-separated piece, and those pieces re-join to the input. */
  lemma ParseNamesOrder(notebooks: string)
    ensures var raw := Split(notebooks, ',');
            && Join(raw, ',') == notebooks
            && |ParseNames(notebooks)| == |raw|
            && forall i :: 0 <= i < |raw| ==> ParseNames(notebooks)[i] == Strip(raw[i])
  {
    JoinSplit(notebooks, ',');
  }

  /** Names without commas or surrounding whitespace, joined with commas, parse back to themselves. */
  lemma ParseNamesRoundTrip(names: seq<string>)
    requires |names| >= 1
    requires forall i :: 0 <= i < |names| ==> NoLeadingWs(names[i]) && NoTrailingWs(names[i]) && ',' !in names[i]
    ensures ParseNames(Join(names, ',')) == names
  {
    SplitJoin(names, ',');
    forall i | 0 <= i < |names| ensures Strip(names[i]) == names[i] {
      StripOfStripped(names[i]);
    }
  }

  /** The candidate names for a `--notebooks` value: the configured sample list,
      the directory listing, or a comma-separated list. Reading the sample
      TOML and listing the directory are done by the caller. */
  function NotebookNames(notebooks: string, sampleNames: seq<string>, listing: seq<string>): (r: seq<string>)
    ensures notebooks == "sample" ==> r == sampleNames
    ensures notebooks == "all" ==> r == listing
    ensures notebooks != "sample" && notebooks != "all" ==> r == ParseNames(notebooks)
  {
    if notebooks == "sample" then sampleNames
    else if notebooks == "all" then listing
    else ParseNames(notebooks)
  }

  /** `os.path.join(directory, name, file)`. */
  function RequiredPath(directory: string, name: string, file: string): string {
    PathJoin(PathJoin(directory, name), file)
  }

  /** True iff both required files of notebook `name` exist. */
  predicate HasRequiredFiles(directory: string, name: string, isFile: string -> bool) {
    forall j :: 0 <= j < |RequiredFiles| ==> isFile(RequiredPath(directory, name, RequiredFiles[j]))
  }

  /** The validation loop of `get_valid_notebooks`, with `os.path.isfile` as a
      parameter. It stops at the first missing file and reports its path. */
  method ValidNotebooks(names: seq<string>, directory: string, isFile: string -> bool)
    returns (r: Result<seq<string>, string>)
    ensures r.Ok? <==> forall i :: 0 <= i < |names| ==> HasRequiredFiles(directory, names[i], isFile)
    ensures r.Ok? ==> r.value == names
    ensures r.Err? ==> !isFile(r.error)
    ensures r.Err? ==> exists i, j :: 0 <= i < |names| && 0 <= j < |RequiredFiles|
                                      && r.error == RequiredPath(directory, names[i], RequiredFiles[j])
                                      && (forall j' :: 0 <= j' < j ==> isFile(RequiredPath(directory, names[i], RequiredFiles[j'])))
                                      && forall i' :: 0 <= i' < i ==> HasRequiredFiles(directory, names[i'], isFile)
  {
    var valid: seq<string> := [];
    var i := 0;
    while i < |names|
      invariant 0 <= i <= |names|
      invariant valid == names[..i]
      invariant forall i' :: 0 <= i' < i ==> HasRequiredFiles(directory, names[i'], isFile)
    {
      var j := 0;
      while j < |RequiredFiles|
        invariant 0 <= j <= |RequiredFiles|
        invariant forall j' :: 0 <= j' < j ==> isFile(RequiredPath(directory, names[i], RequiredFiles[j']))
      {
        var path := RequiredPath(directory, names[i], RequiredFiles[j]);
        if !isFile(path) {
          return Err(path);
        }
        j := j + 1;
      }
      valid := valid + [names[i]];
      i := i + 1;
    }
    assert names[..i] == names;
    return Ok(valid);
  }

  /** `get_valid_notebooks`: choose the names, then check each one's files. */
  method GetValidNotebooks(notebooks: string, directory: string, sampleNames: seq<string>,
                           listing: seq<string>, isFile: string -> bool)
    returns (r: Result<seq<string>, string>)
    ensures var names := NotebookNames(notebooks, sampleNames, listing);
            && (r.Ok? <==> forall i :: 0 <= i < |names| ==> HasRequiredFiles(directory, names[i], isFile))
            && (r.Ok? ==> r.value == names)
            && (r.Err? ==> !isFile(r.error))
            && (r.Err? ==> exists i, j :: 0 <= i < |names| && 0 <= j < |RequiredFiles|
                                        && r.error == RequiredPath(directory, names[i], RequiredFiles[j])
                                        && (forall j' :: 0 <= j' < j ==> isFile(RequiredPath(directory, names[i], RequiredFiles[j'])))
                                        && forall i' :: 0 <= i' < i ==> HasRequiredFiles(directory, names[i'], isFile))
  {
    r := ValidNotebooks(NotebookNames(notebooks, sampleNames, listing), directory, isFile);
  }

  // ---------------------------------------------------------------- archive paths

  predicate NotNotebooksSegment(segment: string) {
    segment != NotebooksSegment
  }

  /** `convert_to_destination_path`: drop every `/`-separated segment equal to `notebooks`. */
  function DestinationPath(path: string): string {
    Join(Filter(Split(path, '/'), NotNotebooksSegment), '/')
  }

  /** The segments of the result are exactly the segments of the input other
      than `notebooks`, in their original order (a path made only of such
      segments becomes empty). */
  lemma DestinationSegments(path: string)
    ensures var kept := Filter(Split(path, '/'), NotNotebooksSegment);
            Split(DestinationPath(path), '/') == (if |kept| == 0 then [""] else kept)
    ensures NotebooksSegment !in Split(DestinationPath(path), '/')
  {
    var parts := Split(path, '/');
    var kept := Filter(parts, NotNotebooksSegment);
    if |kept| > 0 {
      FilterSound(parts, NotNotebooksSegment);
      forall k | 0 <= k < |kept| ensures '/' !in kept[k] {
        var j :| 0 <= j < |parts| && parts[j] == kept[k];
      }
      SplitJoin(kept, '/');
    }
  }

  /** A path with no `notebooks` segment is left unchanged. */
  lemma DestinationPathNoSegment(path: string)
    requires NotebooksSegment !in Split(path, '/')
    ensures DestinationPath(path) == path
  {
    var parts := Split(path, '/');
    forall k | 0 <= k < |parts| ensures NotNotebooksSegment(parts[k]) {
      assert parts[k] in parts;
    }
    FilterKeepsAll(parts, NotNotebooksSegment);
    JoinSplit(path, '/');
  }

  /** Converting a path twice is the same as converting it once. */
  lemma DestinationPathIdempotent(path: string)
    ensures DestinationPath(DestinationPath(path)) == DestinationPath(path)
  {
    DestinationSegments(path);
    DestinationPathNoSegment(DestinationPath(path));
  }
}

=== FILE: seqs.dfy ===
/** Order-preserving filtering, as Python's `filter` and list comprehensions with an `if`. */
module Seqs {

  /** The elements of `xs` that satisfy `keep`, in their original order. */
  function Filter<T>(xs: seq<T>, keep: T -> bool): (r: seq<T>)
    ensures |r| <= |xs|
    ensures forall k :: 0 <= k < |r| ==> keep(r[k])
  {
    if |xs| == 0 then []
    else if keep(xs[0]) then [xs[0]] + Filter(xs[1..], keep)
    else Filter(xs[1..], keep)
  }

  /** Every survivor comes from the input. */
  lemma {:induction false} FilterSound<T>(xs: seq<T>, keep: T -> bool)
    ensures forall k :: 0 <= k < |Filter(xs, keep)| ==> Filter(xs, keep)[k] in xs
  {
    if |xs| > 0 {
      FilterSound(xs[1..], keep);
      var rest := Filter(xs[1..], keep);
      assert forall k :: 0 <= k < |rest| ==> rest[k] in xs by {
        forall k | 0 <= k < |rest| ensures rest[k] in xs {
          var j :| 0 <= j < |xs[1..]| && xs[1..][j] == rest[k];
          assert xs[j + 1] == rest[k];
        }
      }
    }
  }

  /** Every input that passes the test survives. */
  lemma {:induction false} FilterComplete<T>(xs: seq<T>, keep: T -> bool)
    ensures forall k :: 0 <= k < |xs| && keep(xs[k]) ==> xs[k] in Filter(xs, keep)
  {
    if |xs| > 0 {
      FilterComplete(xs[1..], keep);
      forall k | 0 <= k < |xs| && keep(xs[k]) ensures xs[k] in Filter(xs, keep) {
        if k > 0 {
          assert xs[k] == xs[1..][k - 1];
        }
      }
    }
  }

  /** Filtering distributes over concatenation, so the survivors keep their relative order. */
  lemma {:induction false} FilterAppend<T>(a: seq<T>, b: seq<T>, keep: T -> bool)
    ensures Filter(a + b, keep) == Filter(a, keep) + Filter(b, keep)
  {
    if |a| == 0 {
      assert a + b == b;
    } else {
      assert (a + b)[0] == a[0];
      assert (a + b)[1..] == a[1..] + b;
      FilterAppend(a[1..], b, keep);
    }
  }

  /** A filter that drops nothing returns its input unchanged. */
  lemma {:induction false} FilterKeepsAll<T>(xs: seq<T>, keep: T -> bool)
    requires forall k :: 0 <= k < |xs| ==> keep(xs[k])
    ensures Filter(xs, keep) == xs
  {
    if |xs| > 0 {
      FilterKeepsAll(xs[1..], keep);
      assert [xs[0]] + xs[1..] == xs;
    }
  }
}

=== FILE: text.dfy ===
/** The handful of Python `str` operations the scripts rely on, over `seq<char>`.
    Whitespace is the ASCII part of Python's `str.isspace`; lower-casing is ASCII only. */
module Text {

  /** Python's `str.isspace` restricted to ASCII: tab, line feed, vertical tab,
      form feed, carriage return, the four information separators and space. */
  predicate IsWs(c: char) {
    9 <= c as int <= 13 || 28 <= c as int <= 32
  }

  /** True iff every character of `s` is whitespace (so `s.strip()` is empty). */
  predicate AllWs(s: string) {
    forall i :: 0 <= i < |s| ==> IsWs(s[i])
  }

  /** The string does not end in whitespace. */
  predicate NoTrailingWs(s: string) {
    |s| == 0 || !IsWs(s[|s| - 1])
  }

  /** The string does not start with whitespace. */
  predicate NoLeadingWs(s: string) {
    |s| == 0 || !IsWs(s[0])
  }

  /** Python's `s.rstrip()`: the longest prefix that does not end in whitespace. */
  function RStrip(s: string): (r: string)
    ensures |r| <= |s| && r == s[..|r|]
    ensures NoTrailingWs(r)
    ensures forall i :: |r| <= i < |s| ==> IsWs(s[i])
    decreases |s|
  {
    if |s| > 0 && IsWs(s[|s| - 1]) then RStrip(s[..|s| - 1]) else s
  }

  /** Python's `s.lstrip()`: the longest suffix that does not start with whitespace. */
  function LStrip(s: string): (r: string)
    ensures |r| <= |s| && r == s[|s| - |r|..]
    ensures NoLeadingWs(r)
    ensures forall i :: 0 <= i < |s| - |r| ==> IsWs(s[i])
    decreases |s|
  {
    if |s| > 0 && IsWs(s[0]) then LStrip(s[1..]) else s
  }

  /** Python's `s.strip()`: no whitespace at either end, and empty exactly
      when the whole string is whitespace. */
  function Strip(s: string): (r: string)
    ensures NoLeadingWs(r) && NoTrailingWs(r)
    ensures |r| == 0 <==> AllWs(s)
    ensures forall c :: c in r ==> c in s
  {
    var m := RStrip(s);
    var r := LStrip(m);
    assert |r| > 0 ==> r[|r| - 1] == m[|m| - 1];
    r
  }

  /** A string with whitespace at neither end is its own `strip()`. */
  lemma StripOfStripped(s: string)
    requires NoLeadingWs(s) && NoTrailingWs(s)
    ensures Strip(s) == s
  {
  }

  /** A string with no trailing whitespace is its own `rstrip()`. */
  lemma RStripOfStripped(s: string)
    requires NoTrailingWs(s)
    ensures RStrip(s) == s
  {
  }

  /** Python's `s.startswith(p)`. */
  predicate StartsWith(s: string, p: string) {
    |p| <= |s| && s[..|p|] == p
  }

  /** Python's `t in s` on strings: `t` occurs in `s` as a contiguous substring. */
  predicate Contains(s: string, t: string) {
    exists i :: 0 <= i <= |s| && StartsWith(s[i..], t)
  }

  /** A substring of a prefix is a substring of the whole string. */
  lemma ContainsAppend(s: string, more: string, t: string)
    requires Contains(s, t)
    ensures Contains(s + more, t)
  {
    var i :| 0 <= i <= |s| && StartsWith(s[i..], t);
    assert (s + more)[i..][..|t|] == s[i..][..|t|];
    assert StartsWith((s + more)[i..], t);
  }

  /** Number of occurrences of `c` in `s`. */
  function Count(s: string, c: char): nat {
    if |s| == 0 then 0 else (if s[0] == c then 1 else 0) + Count(s[1..], c)
  }

  /** Python's `s.split(c)` for a one-character separator: the maximal pieces
      between separators, one more piece than there are separators. */
  function Split(s: string, c: char): (r: seq<string>)
    ensures |r| == Count(s, c) + 1
    ensures forall k :: 0 <= k < |r| ==> c !in r[k]
    decreases |s|
  {
    if |s| == 0 then [""]
    else if s[0] == c then [""] + Split(s[1..], c)
    else
      var t := Split(s[1..], c);
      [[s[0]] + t[0]] + t[1..]
  }

  /** Python's `c.join(parts)` for a one-character separator. */
  function Join(parts: seq<string>, c: char): string {
    if |parts| == 0 then ""
    else if |parts| == 1 then parts[0]
    else parts[0] + [c] + Join(parts[1..], c)
  }

  /** Python's `''.join(parts)`. */
  function Concat(parts: seq<string>): string {
    if |parts| == 0 then "" else parts[0] + Concat(parts[1..])
  }

  /** Splitting and re-joining on the same separator gives the string back. */
  lemma {:induction false} JoinSplit(s: string, c: char)
    ensures Join(Split(s, c), c) == s
    decreases |s|
  {
    if |s| == 0 {
    } else if s[0] == c {
      JoinSplit(s[1..], c);
      var t := Split(s[1..], c);
      assert ([""] + t)[1..] == t;
    } else {
      JoinSplit(s[1..], c);
      var t := Split(s[1..], c);
      var p := [s[0]] + t[0];
      if |t| == 1 {
        assert Join([p] + t[1..], c) == p;
      } else {
        assert ([p] + t[1..])[1..] == t[1..];
        assert Join(t, c) == t[0] + [c] + Join(t[1..], c);
      }
    }
  }

  /** A piece without the separator splits to itself. */
  lemma {:induction false} SplitNoSep(p: string, c: char)
    requires c !in p
    ensures Split(p, c) == [p]
    decreases |p|
  {
    if |p| > 0 {
      SplitNoSep(p[1..], c);
      assert [p[0]] + p[1..] == p;
    }
  }

  /** Splitting `p + c + rest` yields `p` followed by the pieces of `rest`. */
  lemma {:induction false} SplitCons(p: string, c: char, rest: string)
    requires c !in p
    ensures Split(p + [c] + rest, c) == [p] + Split(rest, c)
    decreases |p|
  {
    var s := p + [c] + rest;
    if |p| == 0 {
      assert s[0] == c && s[1..] == rest;
    } else {
      assert s[0] == p[0] && s[1..] == p[1..] + [c] + rest;
      SplitCons(p[1..], c, rest);
      assert [p[0]] + p[1..] == p;
    }
  }

  /** Joining separator-free pieces and splitting again gives the pieces back. */
  lemma {:induction false} SplitJoin(parts: seq<string>, c: char)
    requires |parts| >= 1
    requires forall k :: 0 <= k < |parts| ==> c !in parts[k]
    ensures Split(Join(parts, c), c) == parts
    decreases |parts|
  {
    if |parts| == 1 {
      SplitNoSep(parts[0], c);
    } else {
      SplitJoin(parts[1..], c);
      SplitCons(parts[0], c, Join(parts[1..], c));
      assert [parts[0]] + parts[1..] == parts;
    }
  }

  /** POSIX `os.path.join(a, b)`: an absolute `b` replaces `a`; otherwise a
      slash is inserted unless `a` is empty or already ends in one. */
  function PathJoin(a: string, b: string): string {
    if StartsWith(b, "/") then b
    else if |a| == 0 || a[|a| - 1] == '/' then a + b
    else a + "/" + b
  }

  /** ASCII lower-casing of one character. */
  function LowerChar(c: char): char {
    if 'A' <= c <= 'Z' then (c as int + 32) as char else c
  }

  /** Python's `s.lower()`, restricted to ASCII letters. */
  function Lower(s: string): (r: string)
    ensures |r| == |s|
    ensures forall i :: 0 <= i < |s| ==> r[i] == LowerChar(s[i])
  {
    seq(|s|, i requires 0 <= i < |s| => LowerChar(s[i]))
  }

  /** `s.lower() == s` exactly when `s` has no upper-case ASCII letter. */
  lemma LowerFixed(s: string)
    ensures Lower(s) == s <==> forall i :: 0 <= i < |s| ==> !('A' <= s[i] <= 'Z')
  {
    if Lower(s) == s {
      forall i | 0 <= i < |s| ensures !('A' <= s[i] <= 'Z') {
        assert Lower(s)[i] == s[i];
      }
    }
  }

  /** `s.rstrip()` is empty exactly when `s` is all whitespace. */
  lemma RStripEmpty(s: string)
    ensures RStrip(s) == [] <==> AllWs(s)
  {
  }

  /** When `s` does not end in the separator, its last piece is non-empty and
      ends in the last character of `s`. */
  lemma {:induction false} SplitLastChar(s: string, c: char)
    requires |s| > 0 && s[|s| - 1] != c
    ensures var r := Split(s, c); |r[|r| - 1]| > 0 && r[|r| - 1][|r[|r| - 1]| - 1] == s[|s| - 1]
    decreases |s|
  {
    if |s| > 1 {
      assert s[1..][|s| - 2] == s[|s| - 1];
      SplitLastChar(s[1..], c);
    }
  }

  /** A join ends in the last character of its last part, when that part is non-empty. */
  lemma {:induction false} JoinLastChar(parts: seq<string>, c: char)
    requires |parts| >= 1 && |parts[|parts| - 1]| > 0
    ensures var j := Join(parts, c); |j| > 0 && j[|j| - 1] == parts[|parts| - 1][|parts[|parts| - 1]| - 1]
    decreases |parts|
  {
    if |parts| > 1 {
      JoinLastChar(parts[1..], c);
    }
  }

  /** A string occurs in any string that has it as an infix. */
  lemma ContainsInfix(a: string, t: string, b: string)
    ensures Contains(a + t + b, t)
  {
    assert (a + t + b)[|a|..][..|t|] == t;
  }
}

=== FILE: tomlcheck.dfy ===
/** Validation of a notebook's `meta.toml`: the checks run in order and the
    first one that fails is the error the script reports before exiting. */
module TomlCheck {
  import opened Wrappers
  import opened Text
  import opened Values
  import opened Seqs

  /** The error messages of the script, one per check. `Uncaught` stands for
      the Python exception the script raises on a value of the wrong type. */
  datatype MetaError =
    | NoMeta
    | MissingKey(key: string)
    | TagsNotLowercase
    | TagsNotAlphanumeric
    | BadDestination
    | Uncaught

  /** The only destination the script accepts. */
  const Spaces: string := "spaces"

  /** The character class `[a-z0-9]` of the tag regular expression. */
  predicate TagChar(c: char) {
    'a' <= c <= 'z' || '0' <= c <= '9'
  }

  /** `re.sub(r'[^a-z0-9]', '', s)`: the characters of `s` in `[a-z0-9]`, in order. */
  function Scrub(s: string): (r: string)
    ensures |r| <= |s|
  {
    if |s| == 0 then ""
    else (if TagChar(s[0]) then [s[0]] else "") + Scrub(s[1..])
  }

  /** A tag survives the substitution unchanged exactly when all of its
      characters are in `[a-z0-9]`. */
  lemma {:induction false} ScrubFixed(s: string)
    ensures Scrub(s) == s <==> forall i :: 0 <= i < |s| ==> TagChar(s[i])
  {
    if |s| > 0 {
      ScrubFixed(s[1..]);
      if TagChar(s[0]) {
        assert [s[0]] + s[1..] == s;
        if Scrub(s) == s {
          assert Scrub(s[1..]) == s[1..];
        }
      } else {
        assert |Scrub(s)| < |s|;
      }
    }
  }

  /** `key not in meta`, with the exception Python raises on a section that
      is a number or a boolean. */
  function Require(meta: Value, key: string): (r: Outcome<MetaError>)
    ensures meta.Table? ==> (r.Pass? <==> key in meta.entries)
    ensures r.Fail? ==> r.error == MissingKey(key) || r.error == Uncaught
  {
    match PyIn(key, meta)
    case None => Fail(Uncaught)
    case Some(false) => Fail(MissingKey(key))
    case Some(true) => Pass
  }

  /** `[x.lower() for x in tags]` on a list of strings. */
  function LowerEach(xs: seq<Value>): seq<Value>
    requires AllStr(xs)
  {
    seq(|xs|, k requires 0 <= k < |xs| => Str(Lower(xs[k].s)))
  }

  /** `[re.sub(r'[^a-z0-9]', '', x) for x in tags]` on a list of strings. */
  function ScrubEach(xs: seq<Value>): seq<Value>
    requires AllStr(xs)
  {
    seq(|xs|, k requires 0 <= k < |xs| => Str(Scrub(xs[k].s)))
  }

  /** The two tag checks. A string or a table iterates to a list of strings,
      which never equals the string or table itself, so it fails the first
      check; a number or boolean is not iterable, and a list element that is
      not a string has no `lower()`. */
  function CheckTags(tags: Value): Outcome<MetaError> {
    match tags
    case List(xs) =>
      if !AllStr(xs) then Fail(Uncaught)
      else if LowerEach(xs) != xs then Fail(TagsNotLowercase)
      else if ScrubEach(xs) != xs then Fail(TagsNotAlphanumeric)
      else Pass
    case Str(_) => Fail(TagsNotLowercase)
    case Table(_) => Fail(TagsNotLowercase)
    case _ => Fail(Uncaught)
  }

  /** The destinations check: a falsy value passes; otherwise every element
      (a string's characters, a table's keys) must equal `"spaces"`. */
  function CheckDestinations(d: Value): Outcome<MetaError> {
    if !Truthy(d) then Pass
    else match d
      case List(xs) =>
        if |Filter(xs, (x: Value) => x != Str(Spaces))| > 0 then Fail(BadDestination) else Pass
      case Str(_) => Fail(BadDestination)
      case Table(m) => if exists k :: k in m && k != Spaces then Fail(BadDestination) else Pass
      case _ => Fail(Uncaught)
  }

  /** The whole validation of one parsed `meta.toml`, stopping at the first failure. */
  function CheckMeta(info: map<string, Value>): (r: Outcome<MetaError>)
    ensures "meta" !in info ==> r == Fail(NoMeta)
    ensures "meta" in info && info["meta"].Table? ==>
              var m := info["meta"].entries;
              && (r == Fail(MissingKey("title")) <==> "title" !in m)
              && (r == Fail(MissingKey("description")) <==> "title" in m && "description" !in m)
              && (r == Fail(MissingKey("icon")) <==> "title" in m && "description" in m && "icon" !in m)
    ensures "meta" in info && info["meta"].Table?
            && "title" in info["meta"].entries && "description" in info["meta"].entries && "icon" in info["meta"].entries ==>
              var tags := Get(info["meta"].entries, "tags", List([]));
              var d := Get(info["meta"].entries, "destinations", List([]));
              && (tags.List? && AllStr(tags.items) && (exists k :: 0 <= k < |tags.items| && Lower(tags.items[k].s) != tags.items[k].s) ==>
                    r == Fail(TagsNotLowercase))
              && (!TagsValid(tags) ==> r.Fail? && r.error != BadDestination)
              && (TagsValid(tags) && (d.List? || d.Str? || d.Table?) && !DestinationsValid(d) ==> r == Fail(BadDestination))
    ensures "meta" in info && info["meta"].Table?
            && "title" in info["meta"].entries && "description" in info["meta"].entries && "icon" in info["meta"].entries ==>
              var tags := Get(info["meta"].entries, "tags", List([]));
              var d := Get(info["meta"].entries, "destinations", List([]));
              && (tags.List? && !AllStr(tags.items) ==> r == Fail(Uncaught))
              && (tags.List? && AllStr(tags.items) && (forall k :: 0 <= k < |tags.items| ==> Lower(tags.items[k].s) == tags.items[k].s) && !TagsValid(tags) ==>
                    r == Fail(TagsNotAlphanumeric))
              && (tags.Str? || tags.Table? ==> r == Fail(TagsNotLowercase))
              && (TagsValid(tags) && (d.Int? || d.Bool?) && Truthy(d) ==> r == Fail(Uncaught))
  {
    if "meta" !in info then Fail(NoMeta)
    else
      var meta := info["meta"];
      if Require(meta, "title").Fail? then Require(meta, "title")
      else if Require(meta, "description").Fail? then Require(meta, "description")
      else if Require(meta, "icon").Fail? then Require(meta, "icon")
      else if !meta.Table? then Fail(Uncaught)
      else
        var tags := Get(meta.entries, "tags", List([]));
        var d := Get(meta.entries, "destinations", List([]));
        TagsVerdict(tags);
        TagsLowered(tags);
        DestinationsVerdict(d);
        match CheckTags(tags)
        case Fail(e) => Fail(e)
        case Pass => CheckDestinations(d)
  }

  /** Declarative reading of a valid tag value: a list of strings made of `[a-z0-9]`. */
  predicate TagsValid(tags: Value) {
    && tags.List?
    && AllStr(tags.items)
    && forall k, i :: 0 <= k < |tags.items| && 0 <= i < |tags.items[k].s| ==> TagChar(tags.items[k].s[i])
  }

  /** Declarative reading of valid destinations: absent or falsy, or made only of `"spaces"`. */
  predicate DestinationsValid(d: Value) {
    || !Truthy(d)
    || (d.List? && forall k :: 0 <= k < |d.items| ==> d.items[k] == Str(Spaces))
    || (d.Table? && forall k :: k in d.entries ==> k == Spaces)
  }

  /** Declarative reading of a valid `meta.toml`. */
  predicate MetaValid(info: map<string, Value>) {
    && "meta" in info
    && info["meta"].Table?
    && "title" in info["meta"].entries
    && "description" in info["meta"].entries
    && "icon" in info["meta"].entries
    && TagsValid(Get(info["meta"].entries, "tags", List([])))
    && DestinationsValid(Get(info["meta"].entries, "destinations", List([])))
  }

  /** The tag checks pass exactly on a list of strings of `[a-z0-9]`;
      in particular an empty tag, and an absent tag list, are accepted. */
  lemma TagsVerdict(tags: Value)
    ensures CheckTags(tags) == Pass <==> TagsValid(tags)
  {
    if tags.List? && AllStr(tags.items) {
      var xs := tags.items;
      if TagsValid(tags) {
        forall k | 0 <= k < |xs| ensures LowerEach(xs)[k] == xs[k] && ScrubEach(xs)[k] == xs[k] {
          LowerFixed(xs[k].s);
          ScrubFixed(xs[k].s);
        }
      }
      if CheckTags(tags) == Pass {
        forall k, i | 0 <= k < |xs| && 0 <= i < |xs[k].s| ensures TagChar(xs[k].s[i]) {
          assert ScrubEach(xs)[k] == xs[k];
          ScrubFixed(xs[k].s);
        }
      }
    }
  }

  /** A list of strings that lower-casing leaves unchanged passes the first tag check. */
  lemma TagsLowered(tags: Value)
    ensures tags.List? && AllStr(tags.items) && (forall k :: 0 <= k < |tags.items| ==> Lower(tags.items[k].s) == tags.items[k].s) ==>
              LowerEach(tags.items) == tags.items
  {
    if tags.List? && AllStr(tags.items) && forall k :: 0 <= k < |tags.items| ==> Lower(tags.items[k].s) == tags.items[k].s {
      var xs := tags.items;
      forall k | 0 <= k < |xs| ensures LowerEach(xs)[k] == xs[k] {
        assert Lower(xs[k].s) == xs[k].s;
      }
    }
  }

  /** The destinations check passes exactly on the declarative reading. */
  lemma DestinationsVerdict(d: Value)
    ensures CheckDestinations(d) == Pass <==> DestinationsValid(d)
  {
    if d.List? && Truthy(d) {
      var keep := (x: Value) => x != Str(Spaces);
      var f := Filter(d.items, keep);
      FilterSound(d.items, keep);
      FilterComplete(d.items, keep);
      if |f| == 0 {
        forall k | 0 <= k < |d.items| ensures d.items[k] == Str(Spaces) {
          assert !keep(d.items[k]);
        }
      } else {
        assert f[0] in d.items && keep(f[0]);
      }
    }
  }

  /** A `meta.toml` passes every check exactly when it satisfies the declarative reading. */
  lemma MetaVerdict(info: map<string, Value>)
    ensures CheckMeta(info) == Pass <==> MetaValid(info)
  {
    if "meta" in info && info["meta"].Table? {
      var m := info["meta"].entries;
      TagsVerdict(Get(m, "tags", List([])));
      DestinationsVerdict(Get(m, "destinations", List([])));
    }
  }
}

=== FILE: values.dfy ===
/** Parsed JSON and TOML values, as the scripts receive them from `json.loads`
    and `tomllib.load`, with the few bits of Python semantics they rely on. */
module Values {
  import opened Wrappers
  import opened Text

  /** A parsed document value. Floats and TOML dates are not modelled. */
  datatype Value =
    | Null
    | Bool(b: bool)
    | Int(i: int)
    | Str(s: string)
    | List(items: seq<Value>)
    | Table(entries: map<string, Value>)

  /** Python truthiness: `None`, `False`, `0` and empty containers are false. */
  predicate Truthy(v: Value) {
    match v
    case Null => false
    case Bool(b) => b
    case Int(i) => i != 0
    case Str(s) => |s| > 0
    case List(xs) => |xs| > 0
    case Table(m) => |m| > 0
  }

  /** Python's `key in container` for a string key: membership of a dict key,
      substring of a string, element of a list. `None` stands for the
      `TypeError` raised on a number, a boolean or `None`. */
  function PyIn(key: string, container: Value): Option<bool> {
    match container
    case Table(m) => Some(key in m)
    case Str(s) => Some(Contains(s, key))
    case List(xs) => Some(Str(key) in xs)
    case _ => None
  }

  /** Python's `d.get(key, default)`. */
  function Get(d: map<string, Value>, key: string, default: Value): Value {
    if key in d then d[key] else default
  }

  /** True iff every element of the list is a string. */
  predicate AllStr(xs: seq<Value>) {
    forall k :: 0 <= k < |xs| ==> xs[k].Str?
  }
}

=== FILE: wrappers.dfy ===
/** Failure-carrying datatypes used by every checker in the model. */
module Wrappers {

  /** A value that may be absent: a missing dictionary key, a backend that raised. */
  datatype Option<+T> = None | Some(value: T)

  /** Either a computed value or the first error a script would report. */
  datatype Result<+T, +E> = Ok(value: T) | Err(error: E)

  /** The verdict of a validator: it passes, or stops at its first failing check. */
  datatype Outcome<+E> = Pass | Fail(error: E)
}
